=== FILE: README.md ===
# NTJ loan web: a Dafny model of its decision logic

This project models the logic of a Next.js app for loan applications. The
React pages and the Supabase database around that logic are not part of it.
What it models:

- **Loan reference numbers** (`lib/loanReference.ts`). A reference is
  `R` + Buddhist-era year (2 digits) + month + day + a 4-digit running number.
  The number continues from the day's highest reference, and restarts at
  `0001` when there is none or its last four characters do not parse.
- **The document checklist** (`lib/data/documentChecklist.ts`). This is the
  table of form cards and the documents each asks for. The lookups over it
  (cards shown per loan type, a card's documents, all document keys, the
  caption for a key) are written for any table. Lemmas then fix their values
  on the table the app ships.
- **Sending an SMS** (`lib/sms.ts`). This covers phone normalisation, the
  guards before sending, the request posted to the EazySMS gateway and how
  the gateway's answer becomes the result.
- **The SMS notification route** (`app/api/sms/notify/route.ts`):
  - the loan's display label;
  - request validation;
  - which staff phones each of the five workflow events notifies;
  - the message text;
  - the HTTP status of every outcome.
- **Storage keys for uploads** (`lib/storage.ts`). A key is
  `loans/<loanId>/<time>_<id>.<ext>`. The extension is sanitised to ASCII
  letters and digits, or else `bin`.
- **The catalogue lookup routes**: car models and commercial-vehicle models
  of a brand, the latter optionally of one wheel type, districts of a
  province and sub-districts of a district.
- **The commercial-vehicle selects** (`app/components/CommercialCarSelects.tsx`):
  - the option lists with their free-text "other" entry (`อื่นๆ`);
  - the search filter;
  - the wheel-type mapping;
  - the models request the model picker makes.

Layout: one module per source file, plus four shared modules:

- `Wrappers`: `Option` and `Result`.
- `Seqs`: `filter`, `map`, `flatMap`, subsequences and counting.
- `JsStrings`: JavaScript's `trim`, ASCII `toLowerCase`, `includes`, and
  `split(sep).pop()`.
- `JsNumbers`: `parseInt(_, 10)`, `String(n)`, `padStart` and decimal digit
  values.

The database, the clock, random ids, the environment and the HTTP exchange
are parameters:

- a table is a `seq` of rows;
- "today" is a `Day`;
- the gateway is a function from the posted request to its outcome.

## Model

| member | source | states |
|---|---|---|
| LoanReference.YearDigitsValue | lib/loanReference.ts:10 | the year field is two digits whose value is the Buddhist-era year (Gregorian + 543) modulo 100 |
| LoanReference.PrefixEncodesDate | lib/loanReference.ts:9-13 | for a calendar day the 7-character prefix is `R` followed by two-digit year, month and day fields that read back as that date |
| LoanReference.LastFour | lib/loanReference.ts:30 | `slice(-4)` is the last four characters, or the whole reference when shorter |
| LoanReference.NextRef | lib/loanReference.ts:8-37 | the reference is the day's prefix followed by the next running number padded to four digits, and `<prefix>0001` when the newest reference gives no number |
| LoanReference.FirstOfDay | lib/loanReference.ts:27-36 | with no reference yet that day the result is the prefix followed by `0001`, 11 characters in all |
| LoanReference.ParsedSuffixIncrements | lib/loanReference.ts:28-33 | when the last four characters parse to `n`, the next reference carries `n + 1` |
| LoanReference.UnparsableFallsBack | lib/loanReference.ts:31-32 | when the last four characters hold no digit, numbering restarts at `0001` |
| LoanReference.ParsesBack | lib/loanReference.ts:30-35 | a reference issued with number `k < 10000` reads back `k` from its last four characters |
| LoanReference.FollowsOn | lib/loanReference.ts:27-36 | the reference after the one numbered `k` is the one numbered `k + 1` |
| LoanReference.NextRefEncodes | lib/loanReference.ts:35-36 | the result is the day's prefix followed by the next number as four digits |
| LoanReference.Successor | lib/loanReference.ts:28-36 | after a reference whose last four digits are `n`, the next carries `n + 1` in its last four digits |
| LoanReference.IncreasesWithinDay | lib/loanReference.ts:24-36 | issuing twice on the same day gives consecutive numbers, and the second sorts after the first in the descending order the query uses |
| LoanReference.NumberingStallsAfter9999 | lib/loanReference.ts:24-36 | the reference after number 9999 is twelve characters long and sorts below the one numbered 9999, so the descending query keeps finding 9999 and number 10000 is issued again |
| DocumentChecklist.TableShape | lib/data/documentChecklist.ts:20-87 | the table has eight cards; cards 2, 3 and 5 have no documents; the sixth is vehicle-only and the seventh land-only; the cards hold the named item lists |
| DocumentChecklist.GetDocumentSections | lib/data/documentChecklist.ts:90-99 | the shipped table's shown cards all have documents and meet their loan-type condition, keep table order, and include every card that passes |
| DocumentChecklist.ShownSections | lib/data/documentChecklist.ts:93-98 | the shown cards all have documents and meet their condition, keep table order, and include every card that passes |
| DocumentChecklist.SectionsByLoanType | lib/data/documentChecklist.ts:90-99 | the cards shown are personal, income, vehicle (car loans only), land (land-title loans only) and loan, in that order |
| DocumentChecklist.VehicleCardIff | lib/data/documentChecklist.ts:91-95 | a vehicle-only card is shown if and only if the loan type is `personal_car` or `commercial_vehicle` |
| DocumentChecklist.LandCardIff | lib/data/documentChecklist.ts:92-96 | a land-only card is shown if and only if the loan type is `land_title` |
| DocumentChecklist.NeverBothCards | lib/data/documentChecklist.ts:91-96 | no loan type gets both the vehicle card and the land card |
| DocumentChecklist.ItemsForTitle | lib/data/documentChecklist.ts:104-105 | the documents of the first card with that title, or none when no card has it |
| DocumentChecklist.GetDocItemsForCard | lib/data/documentChecklist.ts:102-106 | the documents of the first shown card with the title, or none when no shown card has it |
| DocumentChecklist.CardItemsIff | lib/data/documentChecklist.ts:102-106 | a card gets documents if and only if a card shown for the loan type carries its title |
| DocumentChecklist.GetAllDocumentKeys | lib/data/documentChecklist.ts:109-111 | a document is listed if and only if a card of the shipped table shown for the loan type lists it |
| DocumentChecklist.DocumentKeys | lib/data/documentChecklist.ts:109-111 | a document is listed if and only if some shown card lists it |
| DocumentChecklist.KeysByLoanType | lib/data/documentChecklist.ts:109-111 | the documents to collect are the personal, income, vehicle or land (per loan type) and loan lists, concatenated in card order |
| DocumentChecklist.FindLabel | lib/data/documentChecklist.ts:115-118 | the result is absent exactly when no card lists the key; otherwise it is the caption of a document with that key |
| DocumentChecklist.TableKeysUnique | lib/data/documentChecklist.ts:27-78 | no document key appears twice anywhere in the table |
| DocumentChecklist.GetDocumentTypeLabel | lib/data/documentChecklist.ts:114-120 | a key no card lists is shown as itself; a listed key is shown as the caption of a document with that key |
| DocumentChecklist.LabelRoundTrip | lib/data/documentChecklist.ts:114-120 | every document's key looks up its own caption, whatever the loan type |
| DocumentChecklist.UnknownKeyShownAsIs | lib/data/documentChecklist.ts:119 | a key no card lists is displayed as itself |
| Sms.DigitsOf | lib/sms.ts:13 | the digits of the phone, in order, and exactly as many as the phone holds |
| Sms.NormalizePhone | lib/sms.ts:12-14 | the result is all digits and never starts with `0`; a leading trunk `0` becomes `66` and the rest is unchanged |
| Sms.NormalizeIdempotent | lib/sms.ts:12-14 | normalising a normalised number leaves it unchanged |
| Sms.NormalizeFixedPoints | lib/sms.ts:12-14 | the numbers normalisation leaves alone are exactly the digit strings not starting with `0` |
| Sms.RequestUrl | lib/sms.ts:36 | the URL ends with the create path, and what precedes it is the base URL (default `https://api.eazysms.io`) with one trailing slash removed |
| Sms.DefaultUrl | lib/sms.ts:6 | with no base URL configured the endpoint is the default host followed by the create path |
| Sms.Transaction | lib/sms.ts:30-33 | one entry per non-blank phone, each with the trimmed message and an all-digit phone |
| Sms.TransactionPhones | lib/sms.ts:30-33 | entry `i` carries the normalised form of the `i`-th non-blank phone |
| Sms.PrepareSms | lib/sms.ts:21-50 | each of the three guard errors occurs exactly under its condition, in the source's order; otherwise the request carries the credentials, sender name (default `SMSNOTI`), fixed type fields and a non-empty transaction |
| Sms.Take | lib/sms.ts:61 | `slice(0, n)` is a prefix of length `min(n, length)` |
| Sms.ApiError | lib/sms.ts:61 | the message is `SMS API <status>: ` followed by the start of the body, `min(200, length)` characters of it |
| Sms.Deliver | lib/sms.ts:52-69 | success exactly on a 2xx reply; a thrown error's message is returned; a non-2xx reply gives `SMS API <status>: ` followed by the first `min(200, length)` characters of the body |
| Sms.SendSms | lib/sms.ts:21-70 | a request is posted exactly when the guards pass; the result is ok exactly when the posted request got a 2xx reply |
| Sms.AlwaysPostsValidInput | lib/sms.ts:22-34 | with credentials, a non-blank message and only non-blank phones, the request is posted with one entry per phone |
| SmsNotify.LoanLabel | app/api/sms/notify/route.ts:15-22 | `ref (name)`, `ref`, `name` or the generic case word, by which of the trimmed reference and name are non-empty |
| SmsNotify.LabelNeverBlank | app/api/sms/notify/route.ts:15-22 | the label always has a visible character and starts with the reference when there is one |
| SmsNotify.FindLoan | app/api/sms/notify/route.ts:35-42 | `.single()` finds a loan exactly when one row has the id, and it is that row |
| SmsNotify.StaffPhone | app/api/sms/notify/route.ts:60-79 | a phone is found exactly when one staff row has the id and its phone has a visible character; the result is that phone trimmed |
| SmsNotify.ApproverPhones | app/api/sms/notify/route.ts:48-54 | one phone per approver with a visible phone, each non-blank |
| SmsNotify.ApproversAllReached | app/api/sms/notify/route.ts:48-54 | every approver with a visible phone is listed, and only approvers' phones are |
| SmsNotify.PhoneOfStaff | app/api/sms/notify/route.ts:60-79 | at most one phone, present exactly when the staff member's phone is found, and then that phone |
| SmsNotify.ResubmitPhones | app/api/sms/notify/route.ts:70-89 | the assigned approver's phone when it is found, otherwise every approver's phone |
| SmsNotify.RecipientsFor | app/api/sms/notify/route.ts:47-91 | a new case reaches every approver with a phone, a resubmission the assigned approver (or every approver), and events 2, 4 and 5 the owner's one phone; a value no branch takes reaches nobody; every recipient is non-blank |
| SmsNotify.MessageFor | app/api/sms/notify/route.ts:55-90 | event 1 gets the new-case text, 2 the returned text, 3 the resubmitted text, 4 the approved text and 5 the rejected text, each visible; any other value gets none |
| SmsNotify.MessagesDistinguishEvents | app/api/sms/notify/route.ts:55-90 | two different events never get the same text for the same case |
| SmsNotify.MessageNamesCase | app/api/sms/notify/route.ts:55-90 | every event's text contains the case caption right after its fixed head |
| SmsNotify.PlanFor | app/api/sms/notify/route.ts:47-91 | an owner event for a loan without owner is refused with 400, and only then; otherwise each event's plan is its recipients with its text, and a value no branch takes plans nothing |
| SmsNotify.Dispatch | app/api/sms/notify/route.ts:93-106 | no recipients gives 200 not-sent and nothing posted; otherwise the SMS is sent, giving 200 sent on success and 502 on failure |
| SmsNotify.RespondByScenario | app/api/sms/notify/route.ts:47-106 | once the loan is found, the answer is the dispatch of each event's recipients and text, 400 for an owner event without owner, and 200 not-sent for a value no branch takes |
| SmsNotify.Route | app/api/sms/notify/route.ts:24-117 | the checks answer 500, 400, 503 and 404 in that order, a found loan is answered for the branch value, and nothing is posted unless all checks pass |
| SmsNotify.Notify | app/api/sms/notify/route.ts:24-117 | bad JSON gives 500; an invalid request gives 400; a missing server key gives 503; an unknown loan gives 404; otherwise the answer is the response for the scenario as validated |
| SmsNotify.NotifyAsWritten | app/api/sms/notify/route.ts:24-117 | the same outcomes, with the branches chosen by strict comparison of the raw scenario value |
| SmsNotify.AcceptedPlansArePosted | app/api/sms/notify/route.ts:93-106 | with the gateway configured and somebody to notify, the request is posted with one entry per recipient, and a 2xx reply gives 200 sent |
| SmsNotify.AgreeOnNumbers | app/api/sms/notify/route.ts:28-91 | when the scenario arrives as a JSON number, the route as written and the corrected route give the same outcome |
| SmsNotify.FoundLoanIsAnswered | app/api/sms/notify/route.ts:28-43 | once the request is valid and the loan is found, the outcome is the response for the scenario |
| SmsNotify.UnmatchedNotifiesNobody | app/api/sms/notify/route.ts:93-98 | a value no branch takes ends in 200 not-sent with nothing posted |
| SmsNotify.StringScenarioIsDropped | app/api/sms/notify/route.ts:28-47 | the route as written accepts the string `"1"`, then notifies nobody |
| SmsNotify.StringScenarioIsSent | app/api/sms/notify/route.ts:28-55 | the corrected route notifies the approvers for the string `"1"` |
| Storage.Extension | lib/storage.ts:7-10 | the extension contains no dot and is no longer than the name |
| Storage.ExtensionShape | lib/storage.ts:7-10 | the extension has no dot, is the lower-cased tail of the name after its last dot, and is the whole name lower-cased when there is no dot |
| Storage.SplitThenLower | lib/storage.ts:7-10 | lower-casing before splitting gives the same last piece as lower-casing after |
| Storage.SafeExtension | lib/storage.ts:11 | the extension when it is non-empty ASCII letters and digits, otherwise `bin` |
| Storage.SafeExtensionIsLowerAlnum | lib/storage.ts:11 | the safe extension is never empty and is lower-case letters and digits only |
| Storage.KeepsAlnumExtension | lib/storage.ts:7-11 | an extension of ASCII letters and digits is kept, lower-cased |
| Storage.RejectsOtherExtension | lib/storage.ts:7-11 | an empty extension, or one with any other character, becomes `bin` |
| Storage.DotlessName | lib/storage.ts:7-11 | a name without a dot is its own extension, kept only when it is all ASCII letters and digits |
| Storage.GeneratedId | lib/storage.ts:12-14 | with a UUID, the id is its first 8 characters (all of it when shorter); otherwise it is the base-36 text from index 2 up to index 10, cut at the end of the text and empty when the text has at most 2 characters |
| Storage.GeneratedIdChars | lib/storage.ts:12-14 | the id is lower-case letters, digits and dashes when the UUID is written with those, or when the base-36 text is `0.` followed by lower-case letters and digits (the `0.` is cut off) |
| Storage.SafeStoragePath | lib/storage.ts:6-16 | the key lies in the loan's folder, and its last dot-separated piece, read back by the extension rule, is the safe extension |
| Storage.PathShape | lib/storage.ts:15 | between the loan's folder and the dot before the safe extension, the key holds the decimal time stamp, `_` and the random id |
| Storage.KeysIdentifyUpload | lib/storage.ts:12-15 | two keys for the same loan are equal if and only if the time stamps, the ids and the safe extensions are, so uploads collide only when both the time stamp and the id repeat |
| Storage.NameOnlyThroughExtension | lib/storage.ts:15 | the original name reaches the key only through its safe extension |
| Storage.ExtensionOfPath | lib/storage.ts:7-15 | sanitising the key's own extension gives it back, so the key is a fixed point of the extension rule |
| Storage.PathIsAscii | lib/storage.ts:1-15 | the key is ASCII if and only if the loan id and the generated id are |
| LookupRoutes.ParseIdParam | app/api/car/models/route.ts:7-14 | a missing or empty parameter is refused as required; one without a leading integer is refused as not a number; otherwise the result is `parseInt`'s value |
| LookupRoutes.Select | app/api/car/models/route.ts:15-17 | the filtered-and-projected list has one row per kept row and is a subsequence of the projected catalogue |
| LookupRoutes.SelectIsByRow | app/api/car/models/route.ts:15-17 | filtering then projecting equals the row-by-row selection |
| LookupRoutes.SelectMembers | app/api/car/models/route.ts:15-17 | every kept row's projection is listed, and every listed row is a kept row's projection |
| LookupRoutes.CarModels | app/api/car/models/route.ts:7-18 | 400 exactly for a missing or non-numeric `brand_id`, with the route's two messages |
| LookupRoutes.CarModelsOfBrand | app/api/car/models/route.ts:15-18 | with a numeric brand id, exactly the brand's models are listed by id and names, in catalogue order |
| LookupRoutes.Districts | app/api/thai-address/districts/route.ts:7-24 | 400 exactly for a missing or non-numeric `province_id`, with the route's two messages |
| LookupRoutes.DistrictsOfProvince | app/api/thai-address/districts/route.ts:21-24 | with a numeric province id, exactly the province's districts are listed, in catalogue order |
| LookupRoutes.SubDistricts | app/api/thai-address/subdistricts/route.ts:7-24 | 400 exactly for a missing or non-numeric `district_id`, with the route's two messages |
| LookupRoutes.SubDistrictsOfDistrict | app/api/thai-address/subdistricts/route.ts:21-24 | with a numeric district id, exactly the district's sub-districts are listed with their postcodes, in catalogue order |
| LookupRoutes.CommercialModels | app/api/commercial-car/models/route.ts:7-15 | 400 exactly for a missing or non-numeric `brand_id`, with the route's two messages |
| LookupRoutes.CommercialRowsWanted | app/api/commercial-car/models/route.ts:16-19 | the brand filter followed by the optional wheel filter keeps exactly the brand's models of the asked wheel type |
| LookupRoutes.CommercialModelsOfBrand | app/api/commercial-car/models/route.ts:16-20 | with a numeric brand id, exactly the brand's models (of wheel type `6` or `10` when asked) are listed by id and names, in catalogue order |
| LookupRoutes.OtherWheelIgnored | app/api/commercial-car/models/route.ts:17 | any `wheel_type` other than `6` or `10` gives the brand's unfiltered list |
| LookupRoutes.WheelFilterNarrows | app/api/commercial-car/models/route.ts:16-19 | asking for a wheel type never changes whether the request is refused, and lists a subsequence of the unfiltered list |
| CommercialCarSelects.WheelTypeToApi | app/components/CommercialCarSelects.tsx:19-23 | `6 ล้อ` gives `6`, `10 ล้อ` gives `10`, and every other value gives nothing |
| CommercialCarSelects.WheelTypeFiltered | app/components/CommercialCarSelects.tsx:14-23 | every value sent is one the models route filters on, and both picker choices send one |
| CommercialCarSelects.OptionList | app/components/CommercialCarSelects.tsx:88-94 | the fetched names come first and unchanged, and `อื่นๆ` and a set current value are always offered |
| CommercialCarSelects.OptionListMembers | app/components/CommercialCarSelects.tsx:88-94 | the fetched names come first and unchanged; `อื่นๆ` and a set current value are always offered; nothing else is |
| CommercialCarSelects.OptionListDistinct | app/components/CommercialCarSelects.tsx:88-94 | without repeated names there is no repeated option |
| CommercialCarSelects.PickerOptions | app/components/CommercialCarSelects.tsx:88-94 | the picker's options begin with the fetched rows' Thai names in order (the model picker at lines 235-241 follows the same rule) |
| CommercialCarSelects.SelectionOffered | app/components/CommercialCarSelects.tsx:88-94 | the selected value and `อื่นๆ` are always among the options of both pickers |
| CommercialCarSelects.ShowOther | app/components/CommercialCarSelects.tsx:67 | the free-text field is shown exactly when the selected value is set and is `อื่นๆ` |
| CommercialCarSelects.OtherAfterChange | app/components/CommercialCarSelects.tsx:69-74 | a change to `อื่นๆ` keeps the typed text; any other change clears it |
| CommercialCarSelects.HiddenOtherIsEmpty | app/components/CommercialCarSelects.tsx:67-74 | after a change made in the picker, the free-text field is either shown or empty |
| CommercialCarSelects.FilterOption | app/components/CommercialCarSelects.tsx:63-65 | an option matches if and only if the typed text, lower-cased, occurs in its lower-cased label (or in the empty text when it has none) |
| CommercialCarSelects.FilterOptionCases | app/components/CommercialCarSelects.tsx:63-65 | empty input keeps every option, an option matches its own label, and an option without a label matches only empty input |
| CommercialCarSelects.FilterOptionIgnoresCase | app/components/CommercialCarSelects.tsx:63-65 | lower-casing the typed text first does not change the match |
| CommercialCarSelects.ModelsEffectFor | app/components/CommercialCarSelects.tsx:170-199 | the list is cleared without a brand or wheel type and emptied for an unknown wheel type; it is left alone when the brand is not in the brand list; otherwise it is fetched for the first brand of that name and the mapped wheel type |
| CommercialCarSelects.FetchedModelsMatch | app/components/CommercialCarSelects.tsx:185-186 | the request the picker makes lists exactly the chosen brand's models of the chosen wheel type, in catalogue order |

## Left out

- Database access: Supabase queries become `seq` inputs.
  - A failed query is the same as no rows.
  - The row order of the "latest reference" query is the order the model is given. Its result is the caller's choice of last reference.
- CommercialCarSelects.HiddenOtherIsEmpty: covers only changes made in the model picker. The effect that clears the model when the brand or wheel type is emptied (app/components/CommercialCarSelects.tsx:171-173) sets the field directly, so `onModelChange` (app/components/CommercialCarSelects.tsx:207-212) does not run and the free-text field keeps its text. The other-brand branch (app/components/CommercialCarSelects.tsx:214-220) shows a plain text input with no free-text field. Neither path is modelled.
- Running numbers past 9999: the four-digit field holds 9999 references a day. `LoanReference.NumberingStallsAfter9999` shows that the source then issues number 10000 over and over. What the authors meant to happen after 9999 is not evident, so the model has no corrected numbering.
- Concurrency: two loans created at the same moment can read the same last reference and get the same number. The model issues one reference at a time.
- The clock and randomness: the current day, `Date.now()`, `crypto.randomUUID()` and `Math.random()` are parameters.
- Time zones: the day is given as a calendar day, so `startOf('day')`/`endOf('day')` and the ISO range are not modelled.
- Floating point: integers are unbounded.
  - `parseInt` of more than 15 digits, `Number()` of fractions and `String()` of huge numbers are not rounded as doubles.
  - A `Number()` coercion is given as its integer result, or none.
- Text encoding:
  - strings are sequences of code points, not UTF-16 code units;
  - `toLowerCase` changes only the ASCII letters;
  - `/\D/` and `/^[a-z0-9]+$/i` are read as ASCII classes.
- HTTP: URL encoding of query strings and `res.json()`/`req.json()` parsing are not modelled.
  - A request body that does not parse is a missing body (500).
  - A gateway reply that is 2xx but whose body fails to parse is treated as success.
- Logging: `console.*` output and the masked headers in it are not modelled.
- Unexpected exceptions: the route's `catch` maps them to 503 or 500. Only the missing service key (503) and an unreadable body (500) are modelled as such.
- UI glue: React components, hooks, loading flags, cancellation of stale fetches, `disabled`, placeholders and the other select components are not modelled.
  - The brand list the model picker looks up is a parameter.
  - The fetched models replacing the list is not modelled.
- Non-string `loanId`: a `loanId` that is not a string (a JSON number, say) is not modelled. The field is an optional string, and only its truthiness is checked.
- `DocumentChecklist`: the source defines `DOC_ITEMS_INCOME`, `DOC_ITEMS_VEHICLE`, `DOC_ITEMS_LAND` and `DOC_ITEMS_LOAN` as the items of cards 4, 6, 7 and 8. The model writes the lists out and proves in `TableShape` that the cards hold them.

## Findings

| source | as written | input that shows it | evidently intended | confidence | as-written member | corrected member |
|---|---|---|---|---|---|---|
| app/api/sms/notify/route.ts:28-70 | validation accepts any scenario that `Number()` turns into 1-5, but the branches compare the raw value with `===` | body `{"scenario": "1", "loanId": <an existing loan>}`: accepted, matches no branch, answers 200 `sent: false` without notifying anyone | the branch taken is the scenario as validated (`Number(scenario)`), so `"1"` notifies the approvers | not executed | SmsNotify.NotifyAsWritten (shown by SmsNotify.StringScenarioIsDropped) | SmsNotify.Notify (shown by SmsNotify.StringScenarioIsSent and SmsNotify.AgreeOnNumbers) |

=== FILE: commercial_car_selects.dfy ===
/** The logic of the commercial-vehicle selects: the brand and model
    option lists with their free-text "other" entry, the search filter of
    the pickers, the mapping from the wheel-type picker to the models
    route's `wheel_type`, and which models request the model picker makes.
    The React components, their state and the fetches are not modelled;
    their inputs (the fetched lists, the form values) are parameters. */
module CommercialCarSelects {
  import opened Wrappers
  import opened JsStrings
  import opened JsNumbers
  import opened Seqs
  import opened LookupRoutes

  /** The option that switches a picker to free text. */
  const Other: string := "อื่นๆ"

  const SixWheels: string := "6 ล้อ"
  const TenWheels: string := "10 ล้อ"

  /** The choices of the wheel-type picker. */
  const WheelOptions: seq<string> := [SixWheels, TenWheels]

  /** `wheelTypeToApi`: the picker's label as the route's `wheel_type`, or
      nothing for any other value. */
  function WheelTypeToApi(wheelLabel: Option<string>): (r: Option<string>)
    ensures r == Some("6") <==> wheelLabel == Some(SixWheels)
    ensures r == Some("10") <==> wheelLabel == Some(TenWheels)
    ensures r.None? <==> wheelLabel != Some(SixWheels) && wheelLabel != Some(TenWheels)
  {
    if wheelLabel == Some(SixWheels) then Some("6")
    else if wheelLabel == Some(TenWheels) then Some("10")
    else None
  }

  /** What the picker sends is always a value the route filters on, and
      both of the picker's choices send one. */
  lemma {:induction false} WheelTypeFiltered(wheelLabel: Option<string>)
    ensures WheelTypeToApi(wheelLabel).Some? ==> FiltersOnWheel(WheelTypeToApi(wheelLabel))
    ensures wheelLabel.Some? && wheelLabel.value in WheelOptions ==> WheelTypeToApi(wheelLabel).Some?
  {
  }

  function NameOf(row: NameRow): string {
    row.nameTh
  }

  /** The values of a picker: the fetched names in order, then `Other`
      unless a fetched name already is `Other`, then the current value when
      it is set, is not `Other` and is not among the names (a value saved
      earlier that the list no longer offers). */
  function OptionList(names: seq<string>, current: Option<string>): (r: seq<string>)
    ensures |r| >= |names| && r[..|names|] == names
    ensures Other in r
    ensures Truthy(current) ==> current.value in r
  {
    var r := names
      + (if Other in names then [] else [Other])
      + (if Truthy(current) && current.value != Other && current.value !in names then [current.value] else []);
    assert r[..|names|] == names;
    r
  }

  /** The fetched names come first and unchanged; `Other` and a set current
      value are always offered; nothing else is. */
  lemma {:induction false} OptionListMembers(names: seq<string>, current: Option<string>)
    ensures var r := OptionList(names, current);
      && |r| >= |names| && r[..|names|] == names
      && Other in r
      && (Truthy(current) ==> current.value in r)
      && forall x :: x in r <==> x in names || x == Other || (Truthy(current) && x == current.value)
  {
    var r := OptionList(names, current);
    assert r[..|names|] == names;
  }

  /** Without repeated names there is no repeated option. */
  lemma {:induction false} OptionListDistinct(names: seq<string>, current: Option<string>)
    requires Distinct(names)
    ensures Distinct(OptionList(names, current))
  {
    var other := if Other in names then [] else [Other];
    var extra := if Truthy(current) && current.value != Other && current.value !in names then [current.value] else [];
    var r := OptionList(names, current);
    assert r == names + other + extra;
    forall i, j | 0 <= i < j < |r| ensures r[i] != r[j] {
      if j < |names| {
      } else if j < |names| + |other| {
        assert r[j] == Other;
        assert r[i] == names[i];
      } else {
        assert r[j] == current.value;
        if i < |names| {
          assert r[i] == names[i];
        } else {
          assert r[i] == Other;
        }
      }
    }
  }

  /** The options of either picker (`brandOptions`, `modelOptions`): the
      fetched rows' Thai names in order, then `Other` and the current value
      as the shared option rule adds them. */
  function PickerOptions(rows: seq<NameRow>, value: Option<string>): (r: seq<string>)
    ensures |r| >= |rows| && forall i :: 0 <= i < |rows| ==> r[i] == rows[i].nameTh
  {
    OptionListMembers(Map(NameOf, rows), value);
    OptionList(Map(NameOf, rows), value)
  }

  /** Whatever is selected is among the options, and so is `Other`. */
  lemma {:induction false} SelectionOffered(rows: seq<NameRow>, value: Option<string>)
    ensures Other in PickerOptions(rows, value)
    ensures Truthy(value) ==> value.value in PickerOptions(rows, value)
  {
    OptionListMembers(Map(NameOf, rows), value);
  }

  /** The free-text field is shown exactly when `Other` is selected. */
  predicate ShowOther(value: Option<string>): (shown: bool)
    ensures shown <==> Truthy(value) && value.value == Other
  {
    value == Some(Other)
  }

  /** `onBrandChange` / `onModelChange`: the free-text field after the
      picker changes to `value`. */
  function OtherAfterChange(value: Option<string>, other: Option<string>): (r: Option<string>)
    ensures ShowOther(value) ==> r == other
    ensures !ShowOther(value) ==> r == None
  {
    if value != Some(Other) then None else other
  }

  /** After a change made in the picker, the free-text field is either
      shown or empty. */
  lemma {:induction false} HiddenOtherIsEmpty(value: Option<string>, other: Option<string>)
    ensures ShowOther(value) || OtherAfterChange(value, other) == None
    ensures OtherAfterChange(value, other) != None ==> ShowOther(value) && OtherAfterChange(value, other) == other
  {
  }

  /** `filterOption`: the option's label, or the empty string, contains
      the typed text, both lower-cased. */
  function FilterOption(input: string, optionLabel: Option<string>): (matches: bool)
    ensures matches <==> exists i :: OccursAt(LabelText(optionLabel), Typed(input), i)
  {
    Includes(LabelText(optionLabel), Typed(input))
  }

  /** `input.toLowerCase()`. */
  function Typed(input: string): string {
    Lower(input)
  }

  /** `(option?.label ?? '').toLowerCase()`. */
  function LabelText(optionLabel: Option<string>): string {
    Lower(optionLabel.GetOr(""))
  }

  /** Empty input keeps every option, an option always matches its own
      label, and an option without a label matches only empty input. */
  lemma {:induction false} FilterOptionCases(input: string, optionLabel: Option<string>)
    ensures FilterOption("", optionLabel)
    ensures optionLabel.Some? ==> FilterOption(optionLabel.value, optionLabel)
    ensures optionLabel.None? ==> (FilterOption(input, optionLabel) <==> input == [])
  {
    assert OccursAt(LabelText(optionLabel), Typed(""), 0);
    if optionLabel.Some? {
      assert OccursAt(LabelText(optionLabel), Typed(optionLabel.value), 0);
    } else if FilterOption(input, optionLabel) {
      var i :| OccursAt(LabelText(optionLabel), Typed(input), i);
    }
  }

  /** The filter ignores the case of the typed text. */
  lemma {:induction false} FilterOptionIgnoresCase(input: string, optionLabel: Option<string>)
    ensures FilterOption(Lower(input), optionLabel) == FilterOption(input, optionLabel)
  {
    LowerIdempotent(input);
  }

  /** What the model picker's effect does when the brand or the wheel type
      changes: clear the list and the value, empty the list, leave the list
      alone (the brand is not in the brand list), or fetch the models of a
      brand id and wheel type. */
  datatype ModelsEffect = ClearModels | EmptyModels | KeepModels | FetchModels(brandId: int, wheelType: string)

  function NameIs(name: string): NameRow -> bool {
    (b: NameRow) => b.nameTh == name
  }

  /** The effect, given the brands the brand list returns. */
  function ModelsEffectFor(brandName: Option<string>, wheelLabel: Option<string>, brands: seq<NameRow>)
    : (e: ModelsEffect)
    ensures e == ClearModels <==> !Truthy(brandName) || !Truthy(wheelLabel)
    ensures e == EmptyModels <==> Truthy(brandName) && Truthy(wheelLabel) && WheelTypeToApi(wheelLabel).None?
    ensures e == KeepModels <==>
      && Truthy(brandName) && WheelTypeToApi(wheelLabel).Some?
      && forall j :: 0 <= j < |brands| ==> brands[j].nameTh != brandName.value
    ensures e.FetchModels? ==>
      && Truthy(brandName) && Some(e.wheelType) == WheelTypeToApi(wheelLabel)
      && exists i :: 0 <= i < |brands| && brands[i].nameTh == brandName.value && brands[i].id == e.brandId
                     && forall j :: 0 <= j < i ==> brands[j].nameTh != brandName.value
  {
    if !Truthy(brandName) || !Truthy(wheelLabel) then ClearModels
    else match WheelTypeToApi(wheelLabel)
      case None => EmptyModels
      case Some(w) =>
        match FirstIndex(NameIs(brandName.value), brands)
        case None => KeepModels
        case Some(i) => FetchModels(brands[i].id, w)
  }

  /** The request the effect makes lists exactly the chosen brand's models
      of the chosen wheel type, in catalogue order. */
  lemma {:induction false} FetchedModelsMatch(brandName: Option<string>, wheelLabel: Option<string>,
                                             brands: seq<NameRow>, catalogue: seq<CommercialModel>)
    requires ModelsEffectFor(brandName, wheelLabel, brands).FetchModels?
    ensures var e := ModelsEffectFor(brandName, wheelLabel, brands);
      var listed := CommercialModels(catalogue, Some(IntToString(e.brandId)), Some(e.wheelType));
      && listed.Listed?
      && listed.rows == SelectByRow(WantedFor(e.brandId, Some(e.wheelType)), CommercialName, catalogue)
      && (forall m :: m in catalogue && m.brandId == e.brandId && m.wheelType == e.wheelType ==> CommercialName(m) in listed.rows)
      && (forall y :: y in listed.rows ==>
            exists m :: m in catalogue && m.brandId == e.brandId && m.wheelType == e.wheelType && CommercialName(m) == y)
  {
    var e := ModelsEffectFor(brandName, wheelLabel, brands);
    var param := Some(IntToString(e.brandId));
    ParseIntOfString(e.brandId);
    WheelTypeFiltered(wheelLabel);
    CommercialModelsOfBrand(catalogue, param, Some(e.wheelType), e.brandId);
  }
}

=== FILE: document_checklist.dfy ===
/** The loan-document checklist: a fixed table of form cards, each with the
    documents to attach, some shown only for vehicle loans or only for
    land-title loans, and the lookups the forms run over it. The lookups
    are defined over any table; the lemmas at the end pin them down for
    the one the application ships. */
module DocumentChecklist {
  import opened Wrappers
  import opened Seqs

  /** One document to attach: its storage key and the caption shown for it
      (the source's `label`). */
  datatype Item = Item(key: string, caption: string)

  /** `showWhenLoanType`: absent, `'vehicle'` or `'land_title'`. */
  datatype Condition = Always | VehicleOnly | LandOnly

  /** One card of the loan form with the documents it asks for. */
  datatype Section = Section(cardTitle: string, items: seq<Item>, showWhen: Condition)

  /** `DOC_ITEMS_BORROWER_PERSONAL`. */
  const BorrowerPersonalItems: seq<Item> := [
    Item("id_card_borrower", "บัตรประชาชนผู้กู้"),
    Item("house_reg_borrower", "ทะเบียนบ้านผู้กู้"),
    Item("marriage_cert_or_consent", "ทะเบียนสมรส / หนังสือยินยอมคู่สมรส (ถ้ามี)")
  ]

  /** `DOC_ITEMS_INCOME`, the items of the income card. */
  const IncomeItems: seq<Item> := [
    Item("statement_3_6_months", "Statement 3–6 เดือน"),
    Item("income_docs", "เอกสารรายได้ (ถ้ามี)")
  ]

  /** `DOC_ITEMS_VEHICLE`, the items of the vehicle card. */
  const VehicleItems: seq<Item> := [
    Item("vehicle_book_original", "เล่มทะเบียนรถตัวจริง"),
    Item("vehicle_book_copy", "สำเนาเล่มทะเบียนรถทุกหน้า"),
    Item("vehicle_photos", "รูปรถปัจจุบัน (หน้า-หลัง-ด้านข้าง-เลขไมล์)"),
    Item("chassis_photo", "รูปเลขตัวถัง (Chassis No.)")
  ]

  /** `DOC_ITEMS_LAND`, the items of the land-title card. */
  const LandItems: seq<Item> := [
    Item("land_deed_ns3_original", "โฉนดที่ดินตัวจริง (น.ส.3 ก.)"),
    Item("land_deed_original", "โฉนดที่ดินตัวจริง (น.ส.4 จ.)"),
    Item("land_deed_copy", "สำเนาโฉนดทุกหน้า"),
    Item("land_deed_registry_check", "ตรวจสารบัญจดทะเบียนด้านหลัง"),
    Item("land_property_photos", "รูปถ่ายที่ดิน/บ้าน/อาคาร")
  ]

  /** `DOC_ITEMS_LOAN`, the items of the loan card. */
  const LoanItems: seq<Item> := [
    Item("closing_balance_letter", "หนังสือยอดปิดบัญชีเดิม (กรณีรีไฟแนนซ์)")
  ]

  /** `DOCUMENT_SECTIONS`, in the order of the cards on the form. */
  const Sections: seq<Section> := [
    Section("ข้อมูลผู้กู้ — 1. ข้อมูลส่วนตัว", BorrowerPersonalItems, Always),
    Section("ข้อมูลผู้กู้สินเชื่อ — 2. ที่อยู่ปัจจุบัน", [], Always),
    Section("ข้อมูลผู้กู้สินเชื่อ — 3. ช่องทางการติดต่อ", [], Always),
    Section("ข้อมูลผู้กู้สินเชื่อ — 4. อาชีพและรายได้", IncomeItems, Always),
    Section("ประเภทสินเชื่อ", [], Always),
    Section("ข้อมูลรถ", VehicleItems, VehicleOnly),
    Section("ข้อมูลโฉนดที่ดิน", LandItems, LandOnly),
    Section("ข้อมูลสินเชื่อ", LoanItems, Always)
  ]

  /** The shape of the shipped table: eight cards, three of them without
      documents, the vehicle card sixth and the land card seventh. */
  predicate Layout(t: seq<Section>) {
    && |t| == 8
    && t[0].items != [] && t[0].showWhen == Always
    && t[1].items == [] && t[2].items == [] && t[4].items == []
    && t[3].items != [] && t[3].showWhen == Always
    && t[5].items != [] && t[5].showWhen == VehicleOnly
    && t[6].items != [] && t[6].showWhen == LandOnly
    && t[7].items != [] && t[7].showWhen == Always
  }

  /** The shipped table has that shape, and its cards carry the item lists. */
  lemma {:induction false} TableShape()
    ensures Layout(Sections)
    ensures Sections[0].items == BorrowerPersonalItems && Sections[3].items == IncomeItems
    ensures Sections[5].items == VehicleItems && Sections[6].items == LandItems
    ensures Sections[7].items == LoanItems
  {
  }

  predicate IsVehicle(loanType: string) {
    loanType == "personal_car" || loanType == "commercial_vehicle"
  }

  predicate IsLand(loanType: string) {
    loanType == "land_title"
  }

  /** The filter of `getDocumentSections`: a card with documents, whose
      condition, if any, the loan type meets. */
  predicate Shown(loanType: string, s: Section) {
    if s.items == [] then false
    else match s.showWhen
      case VehicleOnly => IsVehicle(loanType)
      case LandOnly => IsLand(loanType)
      case Always => true
  }

  function ShownFor(loanType: string): Section -> bool {
    s => Shown(loanType, s)
  }

  /** The cards of `table` to show for a loan type: all of them that pass
      the filter, none other, in table order. */
  function ShownSections(table: seq<Section>, loanType: string): (r: seq<Section>)
    ensures forall i :: 0 <= i < |r| ==> r[i].items != [] && Shown(loanType, r[i])
    ensures IsSubseq(r, table)
    ensures forall s :: s in table && Shown(loanType, s) ==> s in r
  {
    Filter(ShownFor(loanType), table)
  }

  /** `getDocumentSections`. */
  function GetDocumentSections(loanType: string): (r: seq<Section>)
    ensures forall i :: 0 <= i < |r| ==> r[i].items != [] && Shown(loanType, r[i])
    ensures IsSubseq(r, Sections)
    ensures forall s :: s in Sections && Shown(loanType, s) ==> s in r
  {
    ShownSections(Sections, loanType)
  }

  /** The cards each kind of loan gets from a table of that shape, written
      out by hand. */
  function ExpectedSections(t: seq<Section>, loanType: string): seq<Section>
    requires |t| == 8
  {
    [t[0], t[3]]
    + (if IsVehicle(loanType) then [t[5]] else [])
    + (if IsLand(loanType) then [t[6]] else [])
    + [t[7]]
  }

  lemma {:induction false} Regroup<T>(a: T, b: T, c: seq<T>, d: seq<T>, e: T)
    ensures [a, b] + c + d + [e] == [a] + ([b] + (c + (d + [e])))
  {
  }

  /** On a table of the shipped shape the filter keeps exactly the
      hand-written cards. */
  lemma {:induction false} LayoutShown(t: seq<Section>, loanType: string)
    requires Layout(t)
    ensures ShownSections(t, loanType) == ExpectedSections(t, loanType)
  {
    var p := ShownFor(loanType);
    var veh := if IsVehicle(loanType) then [t[5]] else [];
    var land := if IsLand(loanType) then [t[6]] else [];
    var t5 := veh + (land + [t[7]]);
    var t3 := [t[3]] + t5;
    LayoutTail(t, loanType);
    assert Filter(p, t[3..]) == t3 by {
      FilterStep(p, t[3..]);
      assert t[3..][1..] == t[4..];
    }
    assert Filter(p, t[2..]) == t3 by {
      FilterStep(p, t[2..]);
      assert t[2..][1..] == t[3..];
    }
    assert Filter(p, t[1..]) == t3 by {
      FilterStep(p, t[1..]);
      assert t[1..][1..] == t[2..];
    }
    assert Filter(p, t) == [t[0]] + t3 by {
      FilterStep(p, t);
      assert t[0..] == t;
    }
    Regroup(t[0], t[3], veh, land, t[7]);
  }

  /** The last four cards of a table of the shipped shape filter to the
      vehicle card, the land card and the loan card, as the loan type
      calls for them. */
  lemma {:induction false} LayoutTail(t: seq<Section>, loanType: string)
    requires Layout(t)
    ensures Filter(ShownFor(loanType), t[4..])
      == (if IsVehicle(loanType) then [t[5]] else []) + ((if IsLand(loanType) then [t[6]] else []) + [t[7]])
  {
    var p := ShownFor(loanType);
    var veh := if IsVehicle(loanType) then [t[5]] else [];
    var land := if IsLand(loanType) then [t[6]] else [];
    var t7 := [t[7]];
    var t6 := land + t7;
    var t5 := veh + t6;
    assert Filter(p, t[7..]) == t7 by {
      FilterStep(p, t[7..]);
      assert t[7..][1..] == [];
    }
    assert Filter(p, t[6..]) == t6 by {
      FilterStep(p, t[6..]);
      assert t[6..][1..] == t[7..];
    }
    assert Filter(p, t[5..]) == t5 by {
      FilterStep(p, t[5..]);
      assert t[5..][1..] == t[6..];
    }
    FilterStep(p, t[4..]);
    assert t[4..][1..] == t[5..];
  }

  /** The cards shown: personal data, income and loan details always, the
      vehicle card for car loans and the land card for land-title loans. */
  lemma {:induction false} SectionsByLoanType(loanType: string)
    ensures GetDocumentSections(loanType) == ExpectedSections(Sections, loanType)
  {
    TableShape();
    LayoutShown(Sections, loanType);
  }

  /** Some shown card has the condition `c`. */
  predicate ShowsCondition(secs: seq<Section>, c: Condition) {
    exists i :: 0 <= i < |secs| && secs[i].showWhen == c
  }

  lemma {:induction false} LayoutConditions(t: seq<Section>, loanType: string)
    requires Layout(t)
    ensures ShowsCondition(ShownSections(t, loanType), VehicleOnly) <==> IsVehicle(loanType)
    ensures ShowsCondition(ShownSections(t, loanType), LandOnly) <==> IsLand(loanType)
  {
    var r := ShownSections(t, loanType);
    LayoutShown(t, loanType);
    if IsVehicle(loanType) {
      assert r[2] == t[5];
    }
    if IsLand(loanType) {
      assert r[|r| - 2] == t[6];
    }
  }

  /** The vehicle card is shown exactly for personal-car and
      commercial-vehicle loans. */
  lemma {:induction false} VehicleCardIff(loanType: string)
    ensures ShowsCondition(GetDocumentSections(loanType), VehicleOnly) <==> IsVehicle(loanType)
  {
    TableShape();
    LayoutConditions(Sections, loanType);
  }

  /** The land card is shown exactly for land-title loans. */
  lemma {:induction false} LandCardIff(loanType: string)
    ensures ShowsCondition(GetDocumentSections(loanType), LandOnly) <==> IsLand(loanType)
  {
    TableShape();
    LayoutConditions(Sections, loanType);
  }

  /** No loan type gets both the vehicle and the land card. */
  lemma {:induction false} NeverBothCards(loanType: string)
    ensures !ShowsCondition(GetDocumentSections(loanType), VehicleOnly)
         || !ShowsCondition(GetDocumentSections(loanType), LandOnly)
  {
    VehicleCardIff(loanType);
    LandCardIff(loanType);
  }

  function HasTitle(title: string): Section -> bool {
    (s: Section) => s.cardTitle == title
  }

  /** The documents of the first card titled `title`, or none. */
  function ItemsForTitle(secs: seq<Section>, title: string): (r: seq<Item>)
    ensures (forall i :: 0 <= i < |secs| ==> secs[i].cardTitle != title) ==> r == []
    ensures forall i ::
      (0 <= i < |secs| && secs[i].cardTitle == title
       && forall j :: 0 <= j < i ==> secs[j].cardTitle != title) ==> r == secs[i].items
  {
    match FirstIndex(HasTitle(title), secs)
    case Some(i) => secs[i].items
    case None => []
  }

  /** `getDocItemsForCard`. */
  function GetDocItemsForCard(cardTitle: string, loanType: string): (r: seq<Item>)
    ensures var secs := GetDocumentSections(loanType);
      && ((forall i :: 0 <= i < |secs| ==> secs[i].cardTitle != cardTitle) ==> r == [])
      && (forall i ::
            (0 <= i < |secs| && secs[i].cardTitle == cardTitle
             && forall j :: 0 <= j < i ==> secs[j].cardTitle != cardTitle) ==> r == secs[i].items)
  {
    ItemsForTitle(GetDocumentSections(loanType), cardTitle)
  }

  /** Among cards that all have documents, a title gets documents exactly
      when some card carries it. */
  lemma {:induction false} TitleItemsIff(secs: seq<Section>, title: string)
    requires forall i :: 0 <= i < |secs| ==> secs[i].items != []
    ensures ItemsForTitle(secs, title) != [] <==> exists i :: 0 <= i < |secs| && secs[i].cardTitle == title
  {
    match FirstIndex(HasTitle(title), secs)
    case Some(i) =>
      assert secs[i].cardTitle == title;
    case None =>
  }

  /** A card gets documents exactly when a shown card carries its title. */
  lemma {:induction false} CardItemsIff(cardTitle: string, loanType: string)
    ensures GetDocItemsForCard(cardTitle, loanType) != []
            <==> exists i :: 0 <= i < |GetDocumentSections(loanType)|
                   && GetDocumentSections(loanType)[i].cardTitle == cardTitle
  {
    TitleItemsIff(GetDocumentSections(loanType), cardTitle);
  }

  function SectionItems(): Section -> seq<Item> {
    (s: Section) => s.items
  }

  /** The documents of a list of cards, card by card. */
  function ItemsOf(secs: seq<Section>): (r: seq<Item>)
    ensures forall i, x :: 0 <= i < |secs| && x in secs[i].items ==> x in r
    ensures forall x :: x in r ==> exists i :: 0 <= i < |secs| && x in secs[i].items
  {
    var parts := Map(SectionItems(), secs);
    var r := Flatten(parts);
    forall x | x in r ensures exists i :: 0 <= i < |secs| && x in secs[i].items {
      var i :| 0 <= i < |parts| && x in parts[i];
    }
    r
  }

  /** Every document the shown cards of `table` list, and nothing else. */
  function DocumentKeys(table: seq<Section>, loanType: string): (r: seq<Item>)
    ensures forall x :: x in r <==> exists i :: 0 <= i < |table| && Shown(loanType, table[i]) && x in table[i].items
  {
    var secs := ShownSections(table, loanType);
    var r := ItemsOf(secs);
    forall x | x in r ensures exists i :: 0 <= i < |table| && Shown(loanType, table[i]) && x in table[i].items {
      var k :| 0 <= k < |secs| && x in secs[k].items;
      SubseqMembers(secs, table);
      var i :| 0 <= i < |table| && table[i] == secs[k];
    }
    forall x | exists i :: 0 <= i < |table| && Shown(loanType, table[i]) && x in table[i].items
      ensures x in r
    {
      var i :| 0 <= i < |table| && Shown(loanType, table[i]) && x in table[i].items;
      var k :| 0 <= k < |secs| && secs[k] == table[i];
    }
    r
  }

  /** `getAllDocumentKeys`: every document to collect for a loan type. */
  function GetAllDocumentKeys(loanType: string): (r: seq<Item>)
    ensures forall x :: x in r <==> exists i :: 0 <= i < |Sections| && Shown(loanType, Sections[i]) && x in Sections[i].items
  {
    DocumentKeys(Sections, loanType)
  }

  lemma {:induction false} ItemsOfSingle(s: Section)
    ensures ItemsOf([s]) == s.items
  {
    assert Map(SectionItems(), [s]) == [s.items];
    assert Flatten([s.items]) == s.items + Flatten([]);
  }

  lemma {:induction false} ItemsOfAppend(a: seq<Section>, b: seq<Section>)
    ensures ItemsOf(a + b) == ItemsOf(a) + ItemsOf(b)
  {
    MapAppend(SectionItems(), a, b);
    FlattenAppend(Map(SectionItems(), a), Map(SectionItems(), b));
  }

  /** On a table of the shipped shape the documents come card by card. */
  lemma {:induction false} LayoutKeys(t: seq<Section>, loanType: string)
    requires Layout(t)
    ensures DocumentKeys(t, loanType)
      == t[0].items + t[3].items
         + (if IsVehicle(loanType) then t[5].items else [])
         + (if IsLand(loanType) then t[6].items else [])
         + t[7].items
  {
    LayoutShown(t, loanType);
    var veh: seq<Section> := if IsVehicle(loanType) then [t[5]] else [];
    var land: seq<Section> := if IsLand(loanType) then [t[6]] else [];
    ItemsOfSingle(t[0]);
    ItemsOfSingle(t[3]);
    ItemsOfSingle(t[5]);
    ItemsOfSingle(t[6]);
    ItemsOfSingle(t[7]);
    assert ItemsOf([]) == [];
    assert ItemsOf(veh) == (if IsVehicle(loanType) then t[5].items else []);
    assert ItemsOf(land) == (if IsLand(loanType) then t[6].items else []);
    ItemsOfAppend([t[0]], [t[3]]);
    assert [t[0], t[3]] == [t[0]] + [t[3]];
    ItemsOfAppend([t[0], t[3]], veh);
    ItemsOfAppend([t[0], t[3]] + veh, land);
    ItemsOfAppend([t[0], t[3]] + veh + land, [t[7]]);
  }

  /** The documents to collect, in order: personal, income, then vehicle or
      land documents when the loan type calls for them, then loan documents. */
  lemma {:induction false} KeysByLoanType(loanType: string)
    ensures GetAllDocumentKeys(loanType)
      == BorrowerPersonalItems + IncomeItems
         + (if IsVehicle(loanType) then VehicleItems else [])
         + (if IsLand(loanType) then LandItems else [])
         + LoanItems
  {
    TableShape();
    LayoutKeys(Sections, loanType);
  }

  /** The caption of the first document with `key`, searching card by card. */
  function FindLabel(secs: seq<Section>, key: string): (r: Option<string>)
    ensures r.None? <==> forall i, j :: 0 <= i < |secs| && 0 <= j < |secs[i].items| ==> secs[i].items[j].key != key
    ensures r.Some? ==> exists i, j :: 0 <= i < |secs| && 0 <= j < |secs[i].items| && secs[i].items[j] == Item(key, r.value)
  {
    if secs == [] then None
    else match FirstIndex((it: Item) => it.key == key, secs[0].items)
      case Some(j) => Some(secs[0].items[j].caption)
      case None =>
        var r := FindLabel(secs[1..], key);
        assert forall i :: 1 <= i < |secs| ==> secs[i] == secs[1..][i - 1];
        r
  }

  /** `getDocumentTypeLabel`: the caption for a stored document key, or the
      key itself when no card lists it. The loan type is not consulted. */
  function GetDocumentTypeLabel(loanType: string, key: string): (r: string)
    ensures (forall i, j :: 0 <= i < |Sections| && 0 <= j < |Sections[i].items| ==> Sections[i].items[j].key != key)
            ==> r == key
    ensures (exists i, j :: 0 <= i < |Sections| && 0 <= j < |Sections[i].items| && Sections[i].items[j].key == key)
            ==> exists i, j :: 0 <= i < |Sections| && 0 <= j < |Sections[i].items| && Sections[i].items[j] == Item(key, r)
  {
    FindLabel(Sections, key).GetOr(key)
  }

  predicate KeyAbsent(key: string, items: seq<Item>) {
    items == [] || (items[0].key != key && KeyAbsent(key, items[1..]))
  }

  predicate NoDupKeys(items: seq<Item>) {
    items == [] || (KeyAbsent(items[0].key, items[1..]) && NoDupKeys(items[1..]))
  }

  /** No key of `a` occurs in `b`. */
  predicate Disjoint(a: seq<Item>, b: seq<Item>) {
    a == [] || (KeyAbsent(a[0].key, b) && Disjoint(a[1..], b))
  }

  /** Every document key occurs once in the whole table. */
  predicate UniqueKeys(secs: seq<Section>) {
    && (forall k :: 0 <= k < |secs| ==> NoDupKeys(secs[k].items))
    && (forall k, m :: 0 <= k < m < |secs| ==> Disjoint(secs[k].items, secs[m].items))
  }

  lemma {:induction false} KeyAbsentMeans(key: string, items: seq<Item>)
    requires KeyAbsent(key, items)
    ensures forall j :: 0 <= j < |items| ==> items[j].key != key
  {
    if items != [] {
      KeyAbsentMeans(key, items[1..]);
      assert forall j :: 1 <= j < |items| ==> items[j] == items[1..][j - 1];
    }
  }

  lemma {:induction false} NoDupMeans(items: seq<Item>)
    requires NoDupKeys(items)
    ensures forall j1, j2 :: 0 <= j1 < j2 < |items| ==> items[j1].key != items[j2].key
  {
    if items != [] {
      KeyAbsentMeans(items[0].key, items[1..]);
      NoDupMeans(items[1..]);
      assert forall j :: 1 <= j < |items| ==> items[j] == items[1..][j - 1];
    }
  }

  lemma {:induction false} DisjointMeans(a: seq<Item>, b: seq<Item>)
    requires Disjoint(a, b)
    ensures forall j1, j2 :: 0 <= j1 < |a| && 0 <= j2 < |b| ==> a[j1].key != b[j2].key
  {
    if a != [] {
      KeyAbsentMeans(a[0].key, b);
      DisjointMeans(a[1..], b);
      assert forall j :: 1 <= j < |a| ==> a[j] == a[1..][j - 1];
    }
  }

  /** With unique keys, looking a document's key up gives its own caption. */
  lemma {:induction false} FindLabelUnique(secs: seq<Section>, i: nat, j: nat)
    requires UniqueKeys(secs)
    requires i < |secs| && j < |secs[i].items|
    ensures FindLabel(secs, secs[i].items[j].key) == Some(secs[i].items[j].caption)
  {
    var it := secs[i].items[j];
    var r := FindLabel(secs, it.key);
    var i', j' :| 0 <= i' < |secs| && 0 <= j' < |secs[i'].items| && secs[i'].items[j'] == Item(it.key, r.value);
    if i' < i {
      DisjointMeans(secs[i'].items, secs[i].items);
    } else if i < i' {
      DisjointMeans(secs[i].items, secs[i'].items);
    } else if j' != j {
      NoDupMeans(secs[i].items);
    }
  }

  lemma {:induction false} DisjointFromEmpty(a: seq<Item>)
    ensures Disjoint(a, [])
  {
    if a != [] {
      DisjointFromEmpty(a[1..]);
    }
  }

  /** A table of the shipped shape has unique keys when each of its five
      item lists does and no two of them share a key. */
  lemma {:induction false} LayoutUnique(t: seq<Section>)
    requires Layout(t)
    requires NoDupKeys(t[0].items) && NoDupKeys(t[3].items) && NoDupKeys(t[5].items)
    requires NoDupKeys(t[6].items) && NoDupKeys(t[7].items)
    requires Disjoint(t[0].items, t[3].items) && Disjoint(t[0].items, t[5].items)
    requires Disjoint(t[0].items, t[6].items) && Disjoint(t[0].items, t[7].items)
    requires Disjoint(t[3].items, t[5].items) && Disjoint(t[3].items, t[6].items)
    requires Disjoint(t[3].items, t[7].items) && Disjoint(t[5].items, t[6].items)
    requires Disjoint(t[5].items, t[7].items) && Disjoint(t[6].items, t[7].items)
    ensures UniqueKeys(t)
  {
    forall k | 0 <= k < |t| ensures NoDupKeys(t[k].items) {
      if k == 1 || k == 2 || k == 4 {
        assert t[k].items == [];
      }
    }
    forall k, m | 0 <= k < m < |t| ensures Disjoint(t[k].items, t[m].items) {
      if m == 1 || m == 2 || m == 4 {
        DisjointFromEmpty(t[k].items);
      } else if k == 1 || k == 2 || k == 4 {
        assert t[k].items == [];
      }
    }
  }

  lemma {:induction false} ListsNoDup()
    ensures NoDupKeys(BorrowerPersonalItems) && NoDupKeys(IncomeItems) && NoDupKeys(LoanItems)
  {
  }

  lemma {:induction false} VehicleNoDup()
    ensures NoDupKeys(VehicleItems)
  {
  }

  lemma {:induction false} LandNoDup()
    ensures NoDupKeys(LandItems)
  {
  }

  lemma {:induction false} PersonalIncome()
    ensures Disjoint(BorrowerPersonalItems, IncomeItems)
  {
  }

  lemma {:induction false} PersonalVehicle()
    ensures Disjoint(BorrowerPersonalItems, VehicleItems)
  {
  }

  lemma {:induction false} PersonalLand()
    ensures Disjoint(BorrowerPersonalItems, LandItems)
  {
  }

  lemma {:induction false} PersonalLoan()
    ensures Disjoint(BorrowerPersonalItems, LoanItems)
  {
  }

  lemma {:induction false} IncomeDisjoint()
    ensures Disjoint(IncomeItems, VehicleItems) && Disjoint(IncomeItems, LoanItems)
  {
  }

  lemma {:induction false} IncomeLand()
    ensures Disjoint(IncomeItems, LandItems)
  {
  }

  lemma {:induction false} VehicleLand()
    ensures Disjoint(VehicleItems, LandItems)
  {
  }

  lemma {:induction false} LoanDisjoint()
    ensures Disjoint(VehicleItems, LoanItems) && Disjoint(LandItems, LoanItems)
  {
  }

  /** No document key appears twice in the table. */
  lemma {:induction false} TableKeysUnique()
    ensures UniqueKeys(Sections)
  {
    TableShape();
    ListsNoDup();
    VehicleNoDup();
    LandNoDup();
    PersonalIncome();
    PersonalVehicle();
    PersonalLand();
    PersonalLoan();
    IncomeDisjoint();
    IncomeLand();
    VehicleLand();
    LoanDisjoint();
    LayoutUnique(Sections);
  }

  /** Every document in the table reads back its own caption from its key,
      whatever the loan type. */
  lemma {:induction false} LabelRoundTrip(loanType: string, i: nat, j: nat)
    requires i < |Sections| && j < |Sections[i].items|
    ensures GetDocumentTypeLabel(loanType, Sections[i].items[j].key) == Sections[i].items[j].caption
  {
    TableKeysUnique();
    FindLabelUnique(Sections, i, j);
  }

  /** A key no card lists is shown as itself. */
  lemma {:induction false} UnknownKeyShownAsIs(loanType: string, key: string)
    requires forall i, j :: 0 <= i < |Sections| && 0 <= j < |Sections[i].items| ==> Sections[i].items[j].key != key
    ensures GetDocumentTypeLabel(loanType, key) == key
  {
  }
}

=== FILE: js_numbers.dfy ===
/** JavaScript's decimal text conversions on integers: `parseInt(s, 10)`,
    `String(n)`, `padStart` with a fill character, and the truncating `%`.
    Numbers are unbounded integers here; see README for what that leaves out. */
module JsNumbers {
  import opened Wrappers
  import opened JsStrings

  predicate IsDigit(c: char) {
    '0' <= c <= '9'
  }

  predicate AllDigits(s: string) {
    forall i :: 0 <= i < |s| ==> IsDigit(s[i])
  }

  function DigitValue(c: char): nat
    requires IsDigit(c)
  {
    c as int - '0' as int
  }

  function DigitChar(d: nat): (c: char)
    requires d < 10
    ensures IsDigit(c) && DigitValue(c) == d
  {
    ('0' as int + d) as char
  }

  function Pow10(k: nat): (p: nat)
    ensures p >= 1
  {
    if k == 0 then 1 else 10 * Pow10(k - 1)
  }

  /** The number a string of decimal digits denotes, read left to right:
      each further digit shifts the value one decimal place. */
  function DigitsValue(s: string): nat
    requires AllDigits(s)
  {
    if s == [] then 0 else 10 * DigitsValue(s[..|s| - 1]) + DigitValue(s[|s| - 1])
  }

  lemma {:induction false} MulMonotone(a: nat, b: nat, p: nat)
    requires a <= b
    ensures a * p <= b * p
  {
    assert b * p - a * p == (b - a) * p;
  }

  /** A larger leading digit outweighs any tail: `a*p + p <= b*p` when `a < b`. */
  lemma {:induction false} MulStep(a: nat, b: nat, p: nat)
    requires a < b
    ensures a * p + p <= b * p
  {
    MulMonotone(1, b - a, p);
    assert b * p - a * p == (b - a) * p;
  }

  lemma {:induction false} DigitsValueBound(s: string)
    requires AllDigits(s)
    ensures DigitsValue(s) < Pow10(|s|)
  {
    if s != [] {
      DigitsValueBound(s[..|s| - 1]);
    }
  }

  /** Appending a digit shifts the value one decimal place. */
  lemma {:induction false} DigitsValueSnoc(s: string, c: char)
    requires AllDigits(s) && IsDigit(c)
    ensures AllDigits(s + [c])
    ensures DigitsValue(s + [c]) == 10 * DigitsValue(s) + DigitValue(c)
  {
    assert (s + [c])[..|s|] == s;
  }

  /** The leading digit weighs `10^(length of the rest)`. */
  lemma {:induction false} DigitsValueCons(c: char, s: string)
    requires AllDigits(s) && IsDigit(c)
    ensures AllDigits([c] + s)
    ensures DigitsValue([c] + s) == DigitValue(c) * Pow10(|s|) + DigitsValue(s)
    decreases |s|
  {
    if s != [] {
      var s' := s[..|s| - 1];
      assert ([c] + s)[..|s|] == [c] + s';
      DigitsValueCons(c, s');
      var d, p := DigitValue(c), Pow10(|s'|);
      assert d * Pow10(|s|) == 10 * (d * p) by {
        assert Pow10(|s|) == 10 * p;
      }
    }
  }

  /** For two digit strings of one length, numeric order is dictionary
      order: the comparison the database uses to find the highest one. */
  predicate LexLess(s: string, t: string) {
    if s == [] then t != []
    else t != [] && (s[0] < t[0] || (s[0] == t[0] && LexLess(s[1..], t[1..])))
  }

  lemma {:induction false} LexLessIffValueLess(s: string, t: string)
    requires AllDigits(s) && AllDigits(t) && |s| == |t|
    ensures LexLess(s, t) <==> DigitsValue(s) < DigitsValue(t)
  {
    if s != [] {
      var p := Pow10(|s| - 1);
      var a, b := DigitValue(s[0]), DigitValue(t[0]);
      var x, y := DigitsValue(s[1..]), DigitsValue(t[1..]);
      DigitsValueCons(s[0], s[1..]);
      DigitsValueCons(t[0], t[1..]);
      assert [s[0]] + s[1..] == s && [t[0]] + t[1..] == t;
      DigitsValueBound(s[1..]);
      DigitsValueBound(t[1..]);
      LexLessIffValueLess(s[1..], t[1..]);
      assert LexLess(s, t) == (s[0] < t[0] || (s[0] == t[0] && LexLess(s[1..], t[1..])));
      if a < b {
        MulStep(a, b, p);
      } else if b < a {
        MulStep(b, a, p);
      } else {
        assert s[0] == t[0];
      }
    }
  }

  /** A shared prefix does not change the dictionary order. */
  lemma {:induction false} LexLessCommonPrefix(p: string, s: string, t: string)
    requires LexLess(s, t)
    ensures LexLess(p + s, p + t)
    decreases |p|
  {
    if p != [] {
      assert (p + s)[0] == p[0] == (p + t)[0];
      assert (p + s)[1..] == p[1..] + s;
      assert (p + t)[1..] == p[1..] + t;
      LexLessCommonPrefix(p[1..], s, t);
    } else {
      assert p + s == s && p + t == t;
    }
  }

  /** `String(n)` for a non-negative integer: its shortest decimal form. */
  function NatToString(n: nat): (r: string)
    ensures |r| >= 1 && AllDigits(r)
    ensures r[0] == '0' ==> n == 0
    decreases n
  {
    if n < 10 then [DigitChar(n)] else NatToString(n / 10) + [DigitChar(n % 10)]
  }

  /** The decimal form reads back as the number. */
  lemma {:induction false} NatToStringValue(n: nat)
    ensures DigitsValue(NatToString(n)) == n
    decreases n
  {
    if n >= 10 {
      NatToStringValue(n / 10);
      DigitsValueSnoc(NatToString(n / 10), DigitChar(n % 10));
    }
  }

  /** The decimal form of a number below 10^k has at most k digits. */
  lemma {:induction false} NatToStringLength(n: nat, k: nat)
    requires 1 <= k && n < Pow10(k)
    ensures |NatToString(n)| <= k
    decreases k
  {
    if n >= 10 {
      assert k >= 2;
      NatToStringLength(n / 10, k - 1);
    }
  }

  /** `String(n)` for any integer. */
  function IntToString(n: int): (r: string)
    ensures n >= 0 ==> r == NatToString(n)
    ensures n < 0 ==> r == "-" + NatToString(-n)
  {
    if n < 0 then "-" + NatToString(-n) else NatToString(n)
  }

  /** `s.padStart(width, fill)` with a one-character fill string. */
  function PadStart(s: string, width: nat, fill: char): (r: string)
    ensures |r| == if |s| >= width then |s| else width
    ensures r[|r| - |s|..] == s
    ensures forall i :: 0 <= i < |r| - |s| ==> r[i] == fill
  {
    if |s| >= width then s else seq(width - |s|, _ => fill) + s
  }

  /** A run of zeros in front of a digit string leaves its value unchanged. */
  lemma {:induction false} LeadingZerosValue(s: string, k: nat)
    requires |s| >= k && AllDigits(s)
    requires forall i :: 0 <= i < k ==> s[i] == '0'
    ensures DigitsValue(s) == DigitsValue(s[k..])
    decreases k
  {
    if k > 0 {
      LeadingZerosValue(s[1..], k - 1);
      assert s[1..][k - 1..] == s[k..];
      DigitsValueCons(s[0], s[1..]);
      assert [s[0]] + s[1..] == s;
    }
  }

  /** A zero-padded decimal form still denotes the number. */
  lemma {:induction false} PaddedValue(n: nat, width: nat)
    ensures AllDigits(PadStart(NatToString(n), width, '0'))
    ensures DigitsValue(PadStart(NatToString(n), width, '0')) == n
  {
    var s := NatToString(n);
    var r := PadStart(s, width, '0');
    LeadingZerosValue(r, |r| - |s|);
    NatToStringValue(n);
  }

  /** The longest prefix of `s` made of decimal digits. */
  function LeadingDigits(s: string): (r: string)
    ensures r <= s && AllDigits(r)
    ensures |r| == |s| || !IsDigit(s[|r|])
  {
    if s == [] || !IsDigit(s[0]) then [] else [s[0]] + LeadingDigits(s[1..])
  }

  /** The value of the digits that open `s`, or `None` when it does not
      open with a digit. */
  function ParseDigits(s: string): Option<int> {
    var ds := LeadingDigits(s);
    if ds == [] then None else Some(DigitsValue(ds))
  }

  /** `parseInt(s, 10)`, with `None` for NaN: skip leading whitespace, read
      an optional sign, then the longest run of decimal digits; no digits at
      all is NaN. */
  function ParseInt(s: string): Option<int> {
    var t := TrimStart(s);
    if |t| > 0 && t[0] == '-' then
      match ParseDigits(t[1..])
      case Some(v) => Some(-v)
      case None => None
    else if |t| > 0 && t[0] == '+' then ParseDigits(t[1..])
    else ParseDigits(t)
  }

  /** A string that starts with digits parses to the value of those digits,
      whatever follows them. */
  lemma {:induction false} ParseIntDigitPrefix(ds: string, rest: string)
    requires ds != [] && AllDigits(ds)
    requires rest == [] || !IsDigit(rest[0])
    ensures ParseInt(ds + rest) == Some(DigitsValue(ds))
  {
    var s := ds + rest;
    DigitNotWhitespace(s[0]);
    assert TrimStart(s) == s;
    LeadingDigitsOfPrefix(ds, rest);
  }

  lemma {:induction false} DigitNotWhitespace(c: char)
    requires IsDigit(c)
    ensures !IsWhitespace(c) && c != '-' && c != '+'
  {
  }

  /** The leading digits of `ds + rest` are `ds` when `rest` does not open
      with a digit. */
  lemma {:induction false} LeadingDigitsOfPrefix(ds: string, rest: string)
    requires AllDigits(ds)
    requires rest == [] || !IsDigit(rest[0])
    ensures LeadingDigits(ds + rest) == ds
  {
    var s := ds + rest;
    var l := LeadingDigits(s);
    assert forall k :: 0 <= k < |ds| ==> s[k] == ds[k];
    assert rest != [] ==> s[|ds|] == rest[0];
    assert |l| == |ds|;
    assert l == s[..|l|];
    assert ds == s[..|ds|];
  }

  /** A string with no digit in it parses to NaN. */
  lemma {:induction false} ParseIntNoDigits(s: string)
    requires forall i :: 0 <= i < |s| ==> !IsDigit(s[i])
    ensures ParseInt(s) == None
  {
    var t := TrimStart(s);
    assert t == [] || t[0] in s;
    assert |t| > 1 ==> t[1] in s;
  }

  /** `parseInt(String(n), 10) == n`. */
  lemma {:induction false} ParseIntOfString(n: int)
    ensures ParseInt(IntToString(n)) == Some(n)
  {
    if n >= 0 {
      ParseIntOfNatString(n);
    } else {
      ParseIntOfNegativeString(n);
    }
  }

  lemma {:induction false} ParseIntOfNatString(n: int)
    requires n >= 0
    ensures ParseInt(IntToString(n)) == Some(n)
  {
    ParseIntNonNegative(NatToString(n));
    NatToStringValue(n);
  }

  lemma {:induction false} ParseIntOfNegativeString(n: int)
    requires n < 0
    ensures ParseInt(IntToString(n)) == Some(n)
  {
    var m: nat := -n;
    var d := NatToString(m);
    NatToStringValue(m);
    ParseIntNegative(d);
    assert ParseInt("-" + d) == Some(n);
    assert IntToString(n) == "-" + d;
  }

  lemma {:induction false} LeadingDigitsAll(d: string)
    requires AllDigits(d)
    ensures LeadingDigits(d) == d
  {
    if d != [] {
      LeadingDigitsAll(d[1..]);
      assert [d[0]] + d[1..] == d;
    }
  }

  lemma {:induction false} ParseIntNonNegative(d: string)
    requires d != [] && AllDigits(d)
    ensures ParseInt(d) == Some(DigitsValue(d))
  {
    assert !IsWhitespace(d[0]);
    assert TrimStart(d) == d;
    LeadingDigitsAll(d);
  }

  lemma {:induction false} ParseDigitsAll(d: string)
    requires d != [] && AllDigits(d)
    ensures ParseDigits(d) == Some(DigitsValue(d))
  {
    LeadingDigitsAll(d);
  }

  lemma {:induction false} ParseIntNegative(d: string)
    requires d != [] && AllDigits(d)
    ensures ParseInt("-" + d) == Some(0 - DigitsValue(d))
  {
    var s := "-" + d;
    assert !IsWhitespace(s[0]);
    assert TrimStart(s) == s;
    assert s[1..] == d;
    ParseDigitsAll(d);
  }

  /** The `%` operator of JavaScript on integers: the remainder truncated
      toward zero, so it takes the sign of the dividend. */
  function JsRem(a: int, b: int): (r: int)
    requires b > 0
    ensures a >= 0 ==> 0 <= r < b
    ensures a <= 0 ==> -b < r <= 0
  {
    if a >= 0 then a % b else -((-a) % b)
  }
}

=== FILE: js_strings.dfy ===
/** The JavaScript string operations the application leans on: `trim`,
    truthiness of a trimmed string, ASCII case folding, `includes`, and
    `split(sep).pop()`. Strings are sequences of characters. */
module JsStrings {
  import opened Wrappers

  /** ECMAScript WhiteSpace and LineTerminator characters: the set that
      `String.prototype.trim` removes and `parseInt` skips. */
  predicate IsWhitespace(c: char) {
    || c == '\t' || c == '\n' || c == '\U{000B}' || c == '\U{000C}' || c == '\r'
    || c == ' ' || c == '\U{00A0}' || c == '\U{1680}'
    || ('\U{2000}' <= c <= '\U{200A}')
    || c == '\U{2028}' || c == '\U{2029}' || c == '\U{202F}' || c == '\U{205F}'
    || c == '\U{3000}' || c == '\U{FEFF}'
  }

  predicate AllWhitespace(s: string) {
    forall i :: 0 <= i < |s| ==> IsWhitespace(s[i])
  }

  /** `s.trimStart()`: drops the leading whitespace and nothing else. */
  function TrimStart(s: string): (r: string)
    ensures |r| <= |s| && r == s[|s| - |r|..]
    ensures AllWhitespace(s[..|s| - |r|])
    ensures r == [] || !IsWhitespace(r[0])
  {
    if s == [] || !IsWhitespace(s[0]) then s else TrimStart(s[1..])
  }

  /** `s.trimEnd()`: drops the trailing whitespace and nothing else. */
  function TrimEnd(s: string): (r: string)
    ensures |r| <= |s| && r == s[..|r|]
    ensures AllWhitespace(s[|r|..])
    ensures r == [] || !IsWhitespace(r[|r| - 1])
  {
    if s == [] || !IsWhitespace(s[|s| - 1]) then s else TrimEnd(s[..|s| - 1])
  }

  /** `s.trim()`: whitespace removed from both ends. */
  function Trim(s: string): (r: string)
    ensures |r| <= |s|
    ensures r == [] || (!IsWhitespace(r[0]) && !IsWhitespace(r[|r| - 1]))
  {
    TrimEnd(TrimStart(s))
  }

  /** JavaScript truthiness of an optional string: set and not empty. */
  predicate Truthy(s: Option<string>) {
    s.Some? && s.value != []
  }

  /** JavaScript truthiness of `s.trim()`: the text has a non-blank character. */
  predicate NonBlank(s: string) {
    Trim(s) != []
  }

  /** `trimStart` empties exactly the all-whitespace strings. */
  lemma {:induction false} TrimStartEmpty(s: string)
    ensures TrimStart(s) == [] <==> AllWhitespace(s)
  {
    var t := TrimStart(s);
    if t == [] {
      assert s[..|s|] == s;
    } else {
      assert t[0] == s[|s| - |t|];
    }
  }

  /** A string is blank exactly when every character in it is whitespace. */
  lemma {:induction false} BlankIffAllWhitespace(s: string)
    ensures !NonBlank(s) <==> AllWhitespace(s)
  {
    TrimStartEmpty(s);
  }

  /** Trimming a trimmed string changes nothing. */
  lemma {:induction false} TrimIdempotent(s: string)
    ensures Trim(Trim(s)) == Trim(s)
  {
    var r := Trim(s);
    assert TrimStart(r) == r;
    assert TrimEnd(r) == r;
  }

  predicate IsAscii(c: char) {
    c < 128 as char
  }

  predicate AllAscii(s: string) {
    forall i :: 0 <= i < |s| ==> IsAscii(s[i])
  }

  /** `toLowerCase` on one character, restricted to the ASCII letters. */
  function AsciiLowerChar(c: char): (r: char)
    ensures 'A' <= c <= 'Z' ==> r as int == c as int + 32
    ensures !('A' <= c <= 'Z') ==> r == c
  {
    if 'A' <= c <= 'Z' then (c as int + 32) as char else c
  }

  /** `s.toLowerCase()`, character by character. */
  function Lower(s: string): (r: string)
    ensures |r| == |s|
    ensures forall i :: 0 <= i < |s| ==> r[i] == AsciiLowerChar(s[i])
  {
    if s == [] then [] else [AsciiLowerChar(s[0])] + Lower(s[1..])
  }

  lemma {:induction false} LowerAppend(a: string, b: string)
    ensures Lower(a + b) == Lower(a) + Lower(b)
  {
    if a != [] {
      assert (a + b)[1..] == a[1..] + b;
      LowerAppend(a[1..], b);
    }
  }

  /** Lower-casing twice is lower-casing once. */
  lemma {:induction false} LowerIdempotent(s: string)
    ensures Lower(Lower(s)) == Lower(s)
  {
    var l := Lower(s);
    forall i | 0 <= i < |s| ensures Lower(l)[i] == l[i] {
      assert l[i] == AsciiLowerChar(s[i]);
    }
  }

  /** `t` occurs in `s` starting at position `i`. */
  predicate OccursAt(s: string, t: string, i: int) {
    0 <= i && i + |t| <= |s| && s[i..i + |t|] == t
  }

  /** `s.includes(t)`, as a left-to-right scan. */
  function Includes(s: string, t: string): (b: bool)
    ensures b <==> exists i :: OccursAt(s, t, i)
    decreases |s|
  {
    if t <= s then
      assert OccursAt(s, t, 0);
      true
    else if s == [] then
      assert forall i :: !OccursAt(s, t, i);
      false
    else
      var b := Includes(s[1..], t);
      forall i ensures OccursAt(s[1..], t, i) <==> OccursAt(s, t, i + 1) {
        if 0 <= i && i + |t| <= |s| - 1 {
          assert s[1..][i..i + |t|] == s[i + 1..i + 1 + |t|];
        }
      }
      assert !OccursAt(s, t, 0);
      assert forall i :: OccursAt(s, t, i) ==> i >= 1 && OccursAt(s[1..], t, i - 1);
      b
  }

  /** The last piece of `s.split(sep)`: the text after the last `sep`, or all
      of `s` when `sep` does not occur. */
  function AfterLast(s: string, sep: char): (r: string)
    ensures |r| <= |s| && r == s[|s| - |r|..]
    ensures sep !in r
    ensures |r| < |s| ==> s[|s| - |r| - 1] == sep
    ensures sep !in s ==> r == s
  {
    if s == [] then []
    else if s[|s| - 1] == sep then []
    else AfterLast(s[..|s| - 1], sep) + [s[|s| - 1]]
  }

  /** When `sep` occurs, `s` is the text before its last occurrence, the
      separator, and what `AfterLast` returns. */
  lemma {:induction false} AfterLastSplit(s: string, sep: char)
    ensures var r := AfterLast(s, sep);
      |r| < |s| ==> s == s[..|s| - |r| - 1] + [sep] + r
  {
    var r := AfterLast(s, sep);
    if |r| < |s| {
      var k := |s| - |r|;
      assert s[k - 1] == sep;
      assert s[k..] == r;
      assert s == s[..k - 1] + [s[k - 1]] + s[k..];
    }
  }

  /** The text after the last separator of `a + [sep] + b` is `b` whenever
      `b` holds no separator. */
  lemma {:induction false} AfterLastOfJoin(a: string, sep: char, b: string)
    requires sep !in b
    ensures AfterLast(a + [sep] + b, sep) == b
  {
    var s := a + [sep] + b;
    assert s[|s| - |b|..] == b;
    assert s[|a|] == sep;
    assert forall k :: |a| < k < |s| ==> s[k] == b[k - |a| - 1];
  }
}

=== FILE: loan_reference.dfy ===
/** Loan reference numbers of the form `R YY MM DD XXXX`: the letter R, the
    Buddhist-era year modulo 100, month and day, each as two digits, then the
    running number of the day padded to four digits. The clock reading and
    the result of the "newest reference of today" query are inputs. */
module LoanReference {
  import opened Wrappers
  import opened JsNumbers

  /** The server's local date: `dayjs()` read once. */
  datatype Day = Day(year: int, month: int, day: int)

  /** The Thai (Buddhist-era) year: the Common Era year plus 543. */
  function BuddhistYear(d: Day): int {
    d.year + 543
  }

  /** A date a clock can report, with a non-negative Buddhist-era year. */
  predicate IsCalendarDay(d: Day) {
    BuddhistYear(d) >= 0 && 1 <= d.month <= 12 && 1 <= d.day <= 31
  }

  /** `String(n).padStart(2, '0')`. */
  function TwoDigits(n: int): (r: string)
    ensures 0 <= n < 100 ==> |r| == 2
  {
    var r := PadStart(IntToString(n), 2, '0');
    if 0 <= n < 100 then
      NatToStringLength(n, 2);
      r
    else r
  }

  /** Two digits that read back as the number they render. */
  lemma {:induction false} TwoDigitsValue(n: int)
    requires 0 <= n < 100
    ensures AllDigits(TwoDigits(n)) && DigitsValue(TwoDigits(n)) == n
  {
    PaddedValue(n, 2);
  }

  /** The two-digit Buddhist-era year: `(year + 543) % 100`, zero-padded. */
  function YearDigits(d: Day): (yy: string)
    ensures BuddhistYear(d) >= 0 ==> |yy| == 2
  {
    TwoDigits(JsRem(BuddhistYear(d), 100))
  }

  /** The year field is the Buddhist-era year modulo 100, in two digits. */
  lemma {:induction false} YearDigitsValue(d: Day)
    requires BuddhistYear(d) >= 0
    ensures AllDigits(YearDigits(d)) && DigitsValue(YearDigits(d)) == (BuddhistYear(d)) % 100
  {
    var k := JsRem(BuddhistYear(d), 100);
    assert k == (BuddhistYear(d)) % 100;
    TwoDigitsValue(k);
  }

  /** `R` followed by year, month and day. */
  function Prefix(d: Day): (p: string)
    ensures |p| >= 1 && p[0] == 'R'
    ensures IsCalendarDay(d) ==> |p| == 7
  {
    var yy := YearDigits(d);
    var mm := TwoDigits(d.month);
    var dd := TwoDigits(d.day);
    assert IsCalendarDay(d) ==> |yy| == 2 && |mm| == 2 && |dd| == 2;
    "R" + yy + mm + dd
  }

  /** `p` is `R` followed by three two-digit fields that read back as
      `yy`, `mm` and `dd`. */
  predicate EncodesFields(p: string, yy: int, mm: int, dd: int) {
    |p| == 7 && p[0] == 'R' && AllDigits(p[1..])
    && DigitsValue(p[1..3]) == yy && DigitsValue(p[3..5]) == mm && DigitsValue(p[5..7]) == dd
  }

  lemma {:induction false} FieldsRead(p: string, yy: string, mm: string, dd: string)
    requires |yy| == 2 && |mm| == 2 && |dd| == 2
    requires AllDigits(yy) && AllDigits(mm) && AllDigits(dd)
    requires p == "R" + yy + mm + dd
    ensures EncodesFields(p, DigitsValue(yy), DigitsValue(mm), DigitsValue(dd))
  {
    assert p[1..] == yy + mm + dd;
    assert p[1..3] == yy && p[3..5] == mm && p[5..7] == dd;
  }

  /** The prefix reads back as the date: two digits each of Buddhist-era
      year modulo 100, month and day. */
  lemma {:induction false} PrefixEncodesDate(d: Day)
    requires IsCalendarDay(d)
    ensures EncodesFields(Prefix(d), BuddhistYear(d) % 100, d.month, d.day)
  {
    var yy := YearDigits(d);
    var mm := TwoDigits(d.month);
    var dd := TwoDigits(d.day);
    YearDigitsValue(d);
    TwoDigitsValue(d.month);
    TwoDigitsValue(d.day);
    FieldsRead(Prefix(d), yy, mm, dd);
  }

  /** `ref.slice(-4)`: the last four characters, or all of a shorter string. */
  function LastFour(ref: string): (r: string)
    ensures |r| == if |ref| < 4 then |ref| else 4
    ensures r == ref[|ref| - |r|..]
  {
    if |ref| < 4 then ref else ref[|ref| - 4..]
  }

  /** The running number the newest reference of the day carries, read with
      `parseInt`; `None` when there is no such reference, it is empty, or its
      last four characters do not start a number. */
  function LastSequence(lastRef: Option<string>): Option<int> {
    if lastRef.Some? && lastRef.value != [] then ParseInt(LastFour(lastRef.value)) else None
  }

  /** One past the day's newest running number, or 1 to open the day. */
  function NextSequence(lastRef: Option<string>): int {
    match LastSequence(lastRef)
    case Some(n) => n + 1
    case None => 1
  }

  /** `String(n).padStart(4, '0')`. */
  function FourDigits(n: int): (r: string)
    ensures |r| >= 4
  {
    PadStart(IntToString(n), 4, '0')
  }

  /** The four-digit field of a number below 10000 reads back as it. */
  lemma {:induction false} FourDigitsValue(n: nat)
    requires n < 10000
    ensures |FourDigits(n)| == 4 && AllDigits(FourDigits(n)) && DigitsValue(FourDigits(n)) == n
  {
    PaddedValue(n, 4);
    NatToStringLength(n, 4);
  }

  lemma {:induction false} OpeningSuffix()
    ensures FourDigits(1) == "0001"
  {
    assert IntToString(1) == "1";
  }

  /** The reference for running number `k` on day `d`. */
  function RefFor(d: Day, k: int): (r: string)
    ensures |r| >= |Prefix(d)| + 4 && r[..|Prefix(d)|] == Prefix(d)
  {
    var p := Prefix(d);
    var xxxx := FourDigits(k);
    assert (p + xxxx)[..|p|] == p;
    p + xxxx
  }

  /** `generateNextLoanReference`, with today's date and the query result as inputs. */
  function NextRef(d: Day, lastRef: Option<string>): (r: string)
    ensures r == RefFor(d, NextSequence(lastRef))
    ensures r[..|Prefix(d)|] == Prefix(d) && r[|Prefix(d)|..] == FourDigits(NextSequence(lastRef))
    ensures LastSequence(lastRef).None? ==> r == Prefix(d) + "0001"
  {
    OpeningSuffix();
    var r := RefFor(d, NextSequence(lastRef));
    assert r[|Prefix(d)|..] == FourDigits(NextSequence(lastRef));
    r
  }

  /** An eleven-character reference whose running-number field reads back as `n`. */
  predicate EncodesSequence(r: string, n: int) {
    |r| == 11 && AllDigits(r[7..]) && DigitsValue(r[7..]) == n
  }

  lemma {:induction false} SplitAfterPrefix(r: string, p: string, x: string)
    requires r == p + x && |p| == 7
    ensures r[7..] == x && r[..7] == p
  {
  }

  /** On a real day, the reference for a number below 10000 is eleven
      characters, its last four being the number's digits. */
  lemma {:induction false} RefForEncodes(d: Day, k: nat)
    requires IsCalendarDay(d) && k < 10000
    ensures EncodesSequence(RefFor(d, k), k)
    ensures RefFor(d, k)[7..] == FourDigits(k) && LastFour(RefFor(d, k)) == FourDigits(k)
  {
    FourDigitsValue(k);
    SplitAfterPrefix(RefFor(d, k), Prefix(d), FourDigits(k));
  }

  /** The reference that opens a day is the prefix followed by `0001`, and
      it is eleven characters long. */
  lemma {:induction false} FirstOfDay(d: Day)
    requires IsCalendarDay(d)
    ensures NextRef(d, None) == Prefix(d) + "0001"
    ensures |NextRef(d, None)| == 11
  {
    var r := NextRef(d, None);
    assert LastSequence(None).None?;
    assert r == Prefix(d) + "0001";
    assert |Prefix(d)| == 7;
  }

  /** The running number read back from a reference whose last four
      characters are digits is their value. */
  lemma {:induction false} LastSequenceOfDigits(last: string)
    requires |last| >= 4 && AllDigits(LastFour(last))
    ensures LastSequence(Some(last)) == Some(DigitsValue(LastFour(last)))
    ensures NextSequence(Some(last)) == DigitsValue(LastFour(last)) + 1
  {
    ParseIntNonNegative(LastFour(last));
  }

  /** Fed back as the day's newest, the reference for `k` yields `k`. */
  lemma {:induction false} ParsesBack(d: Day, k: nat)
    requires IsCalendarDay(d) && k < 10000
    ensures LastSequence(Some(RefFor(d, k))) == Some(k)
  {
    var r := RefFor(d, k);
    var x := FourDigits(k);
    RefForEncodes(d, k);
    FourDigitsValue(k);
    assert LastFour(r) == x;
    LastSequenceOfDigits(r);
  }

  /** Fed back as the day's newest, the reference for `k` leads to the
      reference for `k + 1`. */
  lemma {:induction false} FollowsOn(d: Day, k: nat)
    requires IsCalendarDay(d) && k < 10000
    ensures NextRef(d, Some(RefFor(d, k))) == RefFor(d, k + 1)
  {
    var last := Some(RefFor(d, k));
    ParsesBack(d, k);
    assert LastSequence(last) == Some(k);
    assert NextSequence(last) == k + 1;
    assert NextRef(d, last) == RefFor(d, NextSequence(last));
  }

  /** A newest reference whose last four characters parse to `n` is
      followed by the reference for `n + 1`. */
  lemma {:induction false} ParsedSuffixIncrements(d: Day, last: string, n: int)
    requires last != [] && ParseInt(LastFour(last)) == Some(n)
    ensures NextRef(d, Some(last)) == RefFor(d, n + 1)
  {
    assert LastSequence(Some(last)) == Some(n);
    assert NextSequence(Some(last)) == n + 1;
  }

  /** A newest reference whose last four characters hold no digit at all
      parses to NaN, and the day starts over at `0001`. */
  lemma {:induction false} UnparsableFallsBack(d: Day, last: string)
    requires forall i :: 0 <= i < |LastFour(last)| ==> !IsDigit(LastFour(last)[i])
    ensures NextRef(d, Some(last)) == Prefix(d) + "0001"
  {
    ParseIntNoDigits(LastFour(last));
    assert LastSequence(Some(last)).None?;
    assert NextRef(d, Some(last)) == Prefix(d) + "0001";
  }

  lemma {:induction false} NextRefEncodes(d: Day, lastRef: Option<string>, k: nat)
    requires IsCalendarDay(d) && NextSequence(lastRef) == k < 10000
    ensures EncodesSequence(NextRef(d, lastRef), k)
  {
    RefForEncodes(d, k);
  }

  /** For a well-formed newest reference ending in the digits of
      `n < 9999`, the new reference is eleven characters long and its
      running number is `n + 1`. */
  lemma {:induction false} Successor(d: Day, last: string, n: nat)
    requires IsCalendarDay(d) && n < 9999
    requires |last| >= 4 && AllDigits(LastFour(last)) && DigitsValue(LastFour(last)) == n
    ensures EncodesSequence(NextRef(d, Some(last)), n + 1)
  {
    LastSequenceOfDigits(last);
    NextRefEncodes(d, Some(last), n + 1);
  }

  /** Two references with one prefix sort by their running numbers. */
  lemma {:induction false} SamePrefixSorts(p: string, x1: string, x2: string)
    requires |x1| == |x2| && AllDigits(x1) && AllDigits(x2)
    requires DigitsValue(x1) < DigitsValue(x2)
    ensures LexLess(p + x1, p + x2)
  {
    LexLessIffValueLess(x1, x2);
    LexLessCommonPrefix(p, x1, x2);
  }

  /** Within one day the sequence strictly increases: feeding a reference
      back as the day's newest gives one with the next running number
      that sorts after it, so the next query finds the new one. */
  lemma {:induction false} IncreasesWithinDay(d: Day, lastRef: Option<string>)
    requires IsCalendarDay(d)
    requires 0 <= NextSequence(lastRef) < 9999
    ensures EncodesSequence(NextRef(d, lastRef), NextSequence(lastRef))
    ensures NextSequence(Some(NextRef(d, lastRef))) == NextSequence(lastRef) + 1
    ensures EncodesSequence(NextRef(d, Some(NextRef(d, lastRef))), NextSequence(lastRef) + 1)
    ensures LexLess(NextRef(d, lastRef), NextRef(d, Some(NextRef(d, lastRef))))
  {
    var k: nat := NextSequence(lastRef);
    RefForEncodes(d, k);
    RefForEncodes(d, k + 1);
    ParsesBack(d, k);
    FollowsOn(d, k);
    FourDigitsValue(k);
    FourDigitsValue(k + 1);
    SamePrefixSorts(Prefix(d), FourDigits(k), FourDigits(k + 1));
  }

  lemma {:induction false} WideNumbers()
    ensures IntToString(9999) == "9999" && IntToString(10000) == "10000"
  {
    assert NatToString(9) == "9" && NatToString(1) == "1";
    assert NatToString(99) == NatToString(9) + "9";
    assert NatToString(999) == NatToString(99) + "9";
    assert NatToString(9999) == NatToString(999) + "9";
    assert NatToString(10) == NatToString(1) + "0";
    assert NatToString(100) == NatToString(10) + "0";
    assert NatToString(1000) == NatToString(100) + "0";
    assert NatToString(10000) == NatToString(1000) + "0";
  }

  /** The running number outgrows its four-digit field: the reference after
      number 9999 carries `10000` and is twelve characters long, and it sorts
      below the one numbered 9999 in dictionary order. The descending query
      therefore keeps returning the reference numbered 9999, and every later
      reference of that day is the one numbered 10000 again. */
  lemma {:induction false} NumberingStallsAfter9999(d: Day)
    requires IsCalendarDay(d)
    ensures NextRef(d, Some(RefFor(d, 9999))) == RefFor(d, 10000)
    ensures |RefFor(d, 10000)| == 12
    ensures LexLess(RefFor(d, 10000), RefFor(d, 9999))
  {
    FollowsOn(d, 9999);
    WideNumbers();
    assert FourDigits(10000) == "10000" && FourDigits(9999) == "9999";
    assert LexLess("10000", "9999");
    LexLessCommonPrefix(Prefix(d), "10000", "9999");
  }
}

=== FILE: lookup_routes.dfy ===
/** The catalogue lookups behind the cascading selects: car models of a
    brand, commercial-vehicle models of a brand (optionally of one wheel
    type), districts of a province and sub-districts of a district. Each
    reads one id from the query string, rejects a missing or non-numeric
    one with status 400, and otherwise lists the matching catalogue rows,
    in catalogue order, projected to the fields the client needs. The
    catalogues are inputs. */
module LookupRoutes {
  import opened Wrappers
  import opened JsStrings
  import opened JsNumbers
  import opened Seqs

  /** The answer of a lookup: a 400 with an error message, or a 200 with
      the rows. */
  datatype Lookup<T> = Rejected(error: string) | Listed(rows: seq<T>)

  /** The two 400 messages of one route: the parameter is missing or
      empty, or it does not start with a number. */
  datatype ParamErrors = ParamErrors(missing: string, notNumber: string)

  const BrandErrors: ParamErrors := ParamErrors("brand_id is required", "brand_id must be a number")
  const ProvinceErrors: ParamErrors := ParamErrors("province_id is required", "province_id must be a number")
  const DistrictErrors: ParamErrors := ParamErrors("district_id is required", "district_id must be a number")

  /** The query parameter checked for presence and read with
      `parseInt(_, 10)`. */
  function ParseIdParam(errors: ParamErrors, param: Option<string>): (r: Result<int, string>)
    ensures r.Failure? <==> !Truthy(param) || ParseInt(param.value).None?
    ensures !Truthy(param) ==> r == Failure(errors.missing)
    ensures Truthy(param) && ParseInt(param.value).None? ==> r == Failure(errors.notNumber)
    ensures r.Success? ==> Some(r.value) == ParseInt(param.value)
  {
    if !Truthy(param) then Failure(errors.missing)
    else match ParseInt(param.value)
      case None => Failure(errors.notNumber)
      case Some(id) => Success(id)
  }

  /** `catalogue.filter(keep).map(project)`. */
  function Select<T(==), U>(keep: T -> bool, project: T -> U, catalogue: seq<T>): (r: seq<U>)
    ensures |r| == Count(keep, catalogue)
    ensures IsSubseq(r, Map(project, catalogue))
  {
    var kept := Filter(keep, catalogue);
    MapSubseq(project, kept, catalogue);
    Map(project, kept)
  }

  /** The same selection written element by element: each row in turn
      contributes its projection when it is kept. */
  function SelectByRow<T, U>(keep: T -> bool, project: T -> U, catalogue: seq<T>): seq<U> {
    if catalogue == [] then []
    else (if keep(catalogue[0]) then [project(catalogue[0])] else []) + SelectByRow(keep, project, catalogue[1..])
  }

  /** Filtering then projecting is the row-by-row selection. */
  lemma {:induction false} SelectIsByRow<T, U>(keep: T -> bool, project: T -> U, catalogue: seq<T>)
    ensures Select(keep, project, catalogue) == SelectByRow(keep, project, catalogue)
  {
    if catalogue != [] {
      var head := if keep(catalogue[0]) then [catalogue[0]] else [];
      FilterStep(keep, catalogue);
      MapAppend(project, head, Filter(keep, catalogue[1..]));
      SelectIsByRow(keep, project, catalogue[1..]);
    }
  }

  /** The projection of every kept row is listed, and every listed row is
      the projection of a kept one. */
  lemma {:induction false} SelectMembers<T, U>(keep: T -> bool, project: T -> U, catalogue: seq<T>)
    ensures forall x :: x in catalogue && keep(x) ==> project(x) in Select(keep, project, catalogue)
    ensures forall y :: y in Select(keep, project, catalogue) ==>
              exists x :: x in catalogue && keep(x) && project(x) == y
  {
    MapMembers(project, Filter(keep, catalogue));
  }

  function KeyIs<T>(keyOf: T -> int, id: int): T -> bool {
    x => keyOf(x) == id
  }

  /** The shape every lookup shares: validate the id parameter, then list
      the rows whose key equals it. */
  function IdLookup<T(==), U>(errors: ParamErrors, param: Option<string>, keyOf: T -> int, project: T -> U,
                              catalogue: seq<T>): (r: Lookup<U>)
    ensures r.Rejected? <==> !Truthy(param) || ParseInt(param.value).None?
    ensures !Truthy(param) ==> r == Rejected(errors.missing)
    ensures Truthy(param) && ParseInt(param.value).None? ==> r == Rejected(errors.notNumber)
    ensures Truthy(param) && ParseInt(param.value).Some? ==>
      && r.Listed?
      && |r.rows| == Count(KeyIs(keyOf, ParseInt(param.value).value), catalogue)
      && IsSubseq(r.rows, Map(project, catalogue))
  {
    match ParseIdParam(errors, param)
    case Failure(e) => Rejected(e)
    case Success(id) => Listed(Select(KeyIs(keyOf, id), project, catalogue))
  }

  /** With a valid id, exactly the rows carrying that id are listed. */
  lemma {:induction false} IdLookupExact<T, U>(errors: ParamErrors, param: Option<string>, keyOf: T -> int,
                                                   project: T -> U, catalogue: seq<T>, id: int)
    requires Truthy(param) && ParseInt(param.value) == Some(id)
    ensures IdLookup(errors, param, keyOf, project, catalogue) == Listed(SelectByRow(KeyIs(keyOf, id), project, catalogue))
    ensures forall x :: x in catalogue && keyOf(x) == id ==> project(x) in IdLookup(errors, param, keyOf, project, catalogue).rows
    ensures forall y :: y in IdLookup(errors, param, keyOf, project, catalogue).rows ==>
              exists x :: x in catalogue && keyOf(x) == id && project(x) == y
  {
    var keep := KeyIs(keyOf, id);
    SelectIsByRow(keep, project, catalogue);
    SelectMembers(keep, project, catalogue);
    assert forall x :: keep(x) <==> keyOf(x) == id;
  }

  /** The `{ id, name_th, name_en }` every list returns. */
  datatype NameRow = NameRow(id: int, nameTh: string, nameEn: string)

  /** `thai_car/model.json`. */
  datatype CarModel = CarModel(id: int, nameTh: string, nameEn: string, brandId: int)

  function CarBrandOf(m: CarModel): int {
    m.brandId
  }

  function CarName(m: CarModel): NameRow {
    NameRow(m.id, m.nameTh, m.nameEn)
  }

  /** `GET /api/car/models?brand_id=`. */
  function CarModels(catalogue: seq<CarModel>, brandId: Option<string>): (r: Lookup<NameRow>)
    ensures r.Rejected? <==> !Truthy(brandId) || ParseInt(brandId.value).None?
    ensures !Truthy(brandId) ==> r == Rejected("brand_id is required")
    ensures Truthy(brandId) && ParseInt(brandId.value).None? ==> r == Rejected("brand_id must be a number")
  {
    IdLookup(BrandErrors, brandId, CarBrandOf, CarName, catalogue)
  }

  /** With a numeric brand id, the models of that brand are listed by their
      names, all of them and nothing else, in catalogue order. */
  lemma {:induction false} CarModelsOfBrand(catalogue: seq<CarModel>, brandId: Option<string>, id: int)
    requires Truthy(brandId) && ParseInt(brandId.value) == Some(id)
    ensures CarModels(catalogue, brandId) == Listed(SelectByRow(KeyIs(CarBrandOf, id), CarName, catalogue))
    ensures forall m :: m in catalogue && m.brandId == id ==> CarName(m) in CarModels(catalogue, brandId).rows
    ensures forall y :: y in CarModels(catalogue, brandId).rows ==>
              exists m :: m in catalogue && m.brandId == id && CarName(m) == y
  {
    IdLookupExact(BrandErrors, brandId, CarBrandOf, CarName, catalogue, id);
  }

  /** `thai_address/district.json`. */
  datatype District = District(id: int, nameTh: string, nameEn: string, provinceId: int)

  function ProvinceOf(d: District): int {
    d.provinceId
  }

  function DistrictName(d: District): NameRow {
    NameRow(d.id, d.nameTh, d.nameEn)
  }

  /** `GET /api/thai-address/districts?province_id=`. */
  function Districts(catalogue: seq<District>, provinceId: Option<string>): (r: Lookup<NameRow>)
    ensures r.Rejected? <==> !Truthy(provinceId) || ParseInt(provinceId.value).None?
    ensures !Truthy(provinceId) ==> r == Rejected("province_id is required")
    ensures Truthy(provinceId) && ParseInt(provinceId.value).None? ==> r == Rejected("province_id must be a number")
  {
    IdLookup(ProvinceErrors, provinceId, ProvinceOf, DistrictName, catalogue)
  }

  /** With a numeric province id, the districts of that province are
      listed, all of them and nothing else, in catalogue order. */
  lemma {:induction false} DistrictsOfProvince(catalogue: seq<District>, provinceId: Option<string>, id: int)
    requires Truthy(provinceId) && ParseInt(provinceId.value) == Some(id)
    ensures Districts(catalogue, provinceId) == Listed(SelectByRow(KeyIs(ProvinceOf, id), DistrictName, catalogue))
    ensures forall d :: d in catalogue && d.provinceId == id ==> DistrictName(d) in Districts(catalogue, provinceId).rows
    ensures forall y :: y in Districts(catalogue, provinceId).rows ==>
              exists d :: d in catalogue && d.provinceId == id && DistrictName(d) == y
  {
    IdLookupExact(ProvinceErrors, provinceId, ProvinceOf, DistrictName, catalogue, id);
  }

  /** `thai_address/sub_district.json`. */
  datatype SubDistrict = SubDistrict(id: int, nameTh: string, nameEn: string, districtId: int, zipCode: int)

  /** `{ id, name_th, name_en, zip_code }`. */
  datatype ZipRow = ZipRow(id: int, nameTh: string, nameEn: string, zipCode: int)

  function DistrictOf(s: SubDistrict): int {
    s.districtId
  }

  function SubDistrictRow(s: SubDistrict): ZipRow {
    ZipRow(s.id, s.nameTh, s.nameEn, s.zipCode)
  }

  /** `GET /api/thai-address/subdistricts?district_id=`. */
  function SubDistricts(catalogue: seq<SubDistrict>, districtId: Option<string>): (r: Lookup<ZipRow>)
    ensures r.Rejected? <==> !Truthy(districtId) || ParseInt(districtId.value).None?
    ensures !Truthy(districtId) ==> r == Rejected("district_id is required")
    ensures Truthy(districtId) && ParseInt(districtId.value).None? ==> r == Rejected("district_id must be a number")
  {
    IdLookup(DistrictErrors, districtId, DistrictOf, SubDistrictRow, catalogue)
  }

  /** With a numeric district id, the sub-districts of that district are
      listed with their postcodes, all of them and nothing else, in
      catalogue order. */
  lemma {:induction false} SubDistrictsOfDistrict(catalogue: seq<SubDistrict>, districtId: Option<string>, id: int)
    requires Truthy(districtId) && ParseInt(districtId.value) == Some(id)
    ensures SubDistricts(catalogue, districtId) == Listed(SelectByRow(KeyIs(DistrictOf, id), SubDistrictRow, catalogue))
    ensures forall s :: s in catalogue && s.districtId == id ==> SubDistrictRow(s) in SubDistricts(catalogue, districtId).rows
    ensures forall y :: y in SubDistricts(catalogue, districtId).rows ==>
              exists s :: s in catalogue && s.districtId == id && y == ZipRow(s.id, s.nameTh, s.nameEn, s.zipCode)
  {
    IdLookupExact(DistrictErrors, districtId, DistrictOf, SubDistrictRow, catalogue, id);
  }

  /** `commercial_car/model.json`. */
  datatype CommercialModel = CommercialModel(id: int, nameTh: string, nameEn: string, brandId: int, wheelType: string)

  function CommercialBrandOf(m: CommercialModel): int {
    m.brandId
  }

  function CommercialName(m: CommercialModel): NameRow {
    NameRow(m.id, m.nameTh, m.nameEn)
  }

  /** The `wheel_type` values the route filters on; any other value, or
      none, leaves the list alone. */
  predicate FiltersOnWheel(wheelType: Option<string>) {
    wheelType == Some("6") || wheelType == Some("10")
  }

  function WheelIs(w: string): CommercialModel -> bool {
    (m: CommercialModel) => m.wheelType == w
  }

  /** A model the route lists for brand `id` and the given `wheel_type`. */
  predicate Wanted(m: CommercialModel, id: int, wheelType: Option<string>) {
    m.brandId == id && (FiltersOnWheel(wheelType) ==> m.wheelType == wheelType.value)
  }

  function WantedFor(id: int, wheelType: Option<string>): CommercialModel -> bool {
    (m: CommercialModel) => Wanted(m, id, wheelType)
  }

  /** The models of the brand, narrowed to one wheel type when asked for. */
  function CommercialRows(catalogue: seq<CommercialModel>, id: int, wheelType: Option<string>): seq<CommercialModel> {
    var list := Filter(KeyIs(CommercialBrandOf, id), catalogue);
    if FiltersOnWheel(wheelType) then Filter(WheelIs(wheelType.value), list) else list
  }

  /** `GET /api/commercial-car/models?brand_id=&wheel_type=`. */
  function CommercialModels(catalogue: seq<CommercialModel>, brandId: Option<string>, wheelType: Option<string>)
    : (r: Lookup<NameRow>)
    ensures r.Rejected? <==> !Truthy(brandId) || ParseInt(brandId.value).None?
    ensures !Truthy(brandId) ==> r == Rejected("brand_id is required")
    ensures Truthy(brandId) && ParseInt(brandId.value).None? ==> r == Rejected("brand_id must be a number")
  {
    match ParseIdParam(BrandErrors, brandId)
    case Failure(e) => Rejected(e)
    case Success(id) => Listed(Map(CommercialName, CommercialRows(catalogue, id, wheelType)))
  }

  /** The two filters of the route select exactly the wanted models. */
  lemma {:induction false} CommercialRowsWanted(catalogue: seq<CommercialModel>, id: int, wheelType: Option<string>)
    ensures CommercialRows(catalogue, id, wheelType) == Filter(WantedFor(id, wheelType), catalogue)
  {
    var byBrand := KeyIs(CommercialBrandOf, id);
    var wanted := WantedFor(id, wheelType);
    if FiltersOnWheel(wheelType) {
      var byWheel := WheelIs(wheelType.value);
      forall m ensures wanted(m) == (byBrand(m) && byWheel(m)) {
        assert wanted(m) == Wanted(m, id, wheelType);
      }
      FilterThenFilter(byBrand, byWheel, wanted, catalogue);
    } else {
      forall m ensures wanted(m) == byBrand(m) {
        assert wanted(m) == Wanted(m, id, wheelType);
        assert byBrand(m) == (CommercialBrandOf(m) == id);
      }
      FilterSame(byBrand, wanted, catalogue);
    }
  }

  /** Filters that agree everywhere keep the same elements. */
  lemma {:induction false} FilterSame<T>(p: T -> bool, q: T -> bool, s: seq<T>)
    requires forall x :: p(x) == q(x)
    ensures Filter(p, s) == Filter(q, s)
  {
    if s != [] {
      FilterStep(p, s);
      FilterStep(q, s);
      FilterSame(p, q, s[1..]);
    }
  }

  /** With a numeric brand id, the listed models are those of the brand,
      and of the asked wheel type when it is `6` or `10`: all of them and
      nothing else, in catalogue order. */
  lemma {:induction false} CommercialModelsOfBrand(catalogue: seq<CommercialModel>, brandId: Option<string>,
                                                   wheelType: Option<string>, id: int)
    requires Truthy(brandId) && ParseInt(brandId.value) == Some(id)
    ensures CommercialModels(catalogue, brandId, wheelType)
         == Listed(SelectByRow(WantedFor(id, wheelType), CommercialName, catalogue))
    ensures forall m :: m in catalogue && Wanted(m, id, wheelType) ==>
              CommercialName(m) in CommercialModels(catalogue, brandId, wheelType).rows
    ensures forall y :: y in CommercialModels(catalogue, brandId, wheelType).rows ==>
              exists m :: m in catalogue && Wanted(m, id, wheelType) && CommercialName(m) == y
  {
    var wanted := WantedFor(id, wheelType);
    CommercialRowsWanted(catalogue, id, wheelType);
    assert CommercialModels(catalogue, brandId, wheelType) == Listed(Select(wanted, CommercialName, catalogue));
    SelectIsByRow(wanted, CommercialName, catalogue);
    SelectMembers(wanted, CommercialName, catalogue);
    assert forall m :: wanted(m) <==> Wanted(m, id, wheelType);
  }

  /** Any `wheel_type` other than `6` or `10` is ignored. */
  lemma {:induction false} OtherWheelIgnored(catalogue: seq<CommercialModel>, brandId: Option<string>, wheelType: Option<string>)
    requires !FiltersOnWheel(wheelType)
    ensures CommercialModels(catalogue, brandId, wheelType)
         == IdLookup(BrandErrors, brandId, CommercialBrandOf, CommercialName, catalogue)
  {
  }

  /** Asking for a wheel type only narrows the brand's list: what is listed
      is a subsequence of what is listed without it. */
  lemma {:induction false} WheelFilterNarrows(catalogue: seq<CommercialModel>, brandId: Option<string>,
                                             wheelType: Option<string>)
    ensures CommercialModels(catalogue, brandId, wheelType).Listed? <==> CommercialModels(catalogue, brandId, None).Listed?
    ensures CommercialModels(catalogue, brandId, wheelType).Listed? ==>
      IsSubseq(CommercialModels(catalogue, brandId, wheelType).rows, CommercialModels(catalogue, brandId, None).rows)
  {
    if Truthy(brandId) && ParseInt(brandId.value).Some? {
      var id := ParseInt(brandId.value).value;
      var list := Filter(KeyIs(CommercialBrandOf, id), catalogue);
      assert CommercialRows(catalogue, id, None) == list;
      if FiltersOnWheel(wheelType) {
        MapSubseq(CommercialName, Filter(WheelIs(wheelType.value), list), list);
      } else {
        SubseqReflexive(Map(CommercialName, list));
      }
    }
  }
}

=== FILE: seqs.dfy ===
/** Array methods the application uses on catalogues and lists —
    `filter`, `map`, `find`, `some` and `flatMap` — with the facts about
    them that the callers' contracts rest on. */
module Seqs {
  import opened Wrappers

  /** `a` is `b` with some elements dropped, the rest kept in order. */
  predicate IsSubseq<T(==)>(a: seq<T>, b: seq<T>)
    decreases |b|
  {
    if a == [] then true
    else if b == [] then false
    else (a[0] == b[0] && IsSubseq(a[1..], b[1..])) || IsSubseq(a, b[1..])
  }

  lemma {:induction false} SubseqMembers<T>(a: seq<T>, b: seq<T>)
    requires IsSubseq(a, b)
    ensures forall x :: x in a ==> x in b
    decreases |b|
  {
    if a != [] {
      if a[0] == b[0] && IsSubseq(a[1..], b[1..]) {
        SubseqMembers(a[1..], b[1..]);
        assert forall x :: x in a ==> x == a[0] || x in a[1..];
      } else {
        SubseqMembers(a, b[1..]);
      }
    }
  }

  lemma {:induction false} SubseqReflexive<T>(a: seq<T>)
    ensures IsSubseq(a, a)
    decreases |a|
  {
    if a != [] {
      SubseqReflexive(a[1..]);
    }
  }

  /** How many elements of `s` satisfy `p`. */
  function Count<T>(p: T -> bool, s: seq<T>): nat {
    if s == [] then 0 else (if p(s[0]) then 1 else 0) + Count(p, s[1..])
  }

  /** `s.filter(p)`: the elements that satisfy `p`, all of them, in their
      original order. */
  function Filter<T(==)>(p: T -> bool, s: seq<T>): (r: seq<T>)
    ensures forall i :: 0 <= i < |r| ==> p(r[i])
    ensures forall x :: x in s && p(x) ==> x in r
    ensures forall x :: x in r ==> x in s
    ensures IsSubseq(r, s)
    ensures |r| == Count(p, s)
  {
    if s == [] then []
    else
      var rest := Filter(p, s[1..]);
      if p(s[0]) then
        assert ([s[0]] + rest)[1..] == rest;
        [s[0]] + rest
      else
        assert rest == [] || rest[0] != s[0];
        rest
  }

  /** One step of `Filter`: the head is kept exactly when it passes. */
  lemma {:induction false} FilterStep<T>(p: T -> bool, s: seq<T>)
    requires s != []
    ensures Filter(p, s) == (if p(s[0]) then [s[0]] else []) + Filter(p, s[1..])
  {
  }

  /** Filtering by `p` and then by `q` keeps what one filter by their
      conjunction keeps. */
  lemma {:induction false} FilterThenFilter<T>(p: T -> bool, q: T -> bool, both: T -> bool, s: seq<T>)
    requires forall x :: both(x) == (p(x) && q(x))
    ensures Filter(q, Filter(p, s)) == Filter(both, s)
  {
    if s != [] {
      FilterStep(p, s);
      FilterStep(both, s);
      FilterThenFilter(p, q, both, s[1..]);
      if p(s[0]) {
        var ps := Filter(p, s);
        assert ps[0] == s[0] && ps[1..] == Filter(p, s[1..]);
        FilterStep(q, ps);
      }
    }
  }

  /** `s.map(f)`. */
  function Map<T, U>(f: T -> U, s: seq<T>): (r: seq<U>)
    ensures |r| == |s|
    ensures forall i :: 0 <= i < |s| ==> r[i] == f(s[i])
  {
    seq(|s|, i requires 0 <= i < |s| => f(s[i]))
  }

  lemma {:induction false} MapMembers<T, U>(f: T -> U, s: seq<T>)
    ensures forall x :: x in s ==> f(x) in Map(f, s)
    ensures forall y :: y in Map(f, s) ==> exists x :: x in s && f(x) == y
  {
    var r := Map(f, s);
    forall x | x in s ensures f(x) in r {
      var i :| 0 <= i < |s| && s[i] == x;
      assert r[i] == f(x);
    }
    forall y | y in r ensures exists x :: x in s && f(x) == y {
      var i :| 0 <= i < |r| && r[i] == y;
      assert s[i] in s && f(s[i]) == y;
    }
  }

  /** Mapping both sides keeps a subsequence a subsequence. */
  lemma {:induction false} MapSubseq<T, U>(f: T -> U, a: seq<T>, b: seq<T>)
    requires IsSubseq(a, b)
    ensures IsSubseq(Map(f, a), Map(f, b))
    decreases |b|
  {
    var fa, fb := Map(f, a), Map(f, b);
    if a != [] {
      assert fb[1..] == Map(f, b[1..]);
      if a[0] == b[0] && IsSubseq(a[1..], b[1..]) {
        MapSubseq(f, a[1..], b[1..]);
        assert fa[1..] == Map(f, a[1..]);
      } else {
        MapSubseq(f, a, b[1..]);
      }
    }
  }

  /** The index of the first element satisfying `p` (`findIndex`), if any. */
  function FirstIndex<T>(p: T -> bool, s: seq<T>): (r: Option<nat>)
    ensures r.Some? ==> r.value < |s| && p(s[r.value])
    ensures r.Some? ==> forall j :: 0 <= j < r.value ==> !p(s[j])
    ensures r.None? ==> forall j :: 0 <= j < |s| ==> !p(s[j])
  {
    if s == [] then None
    else if p(s[0]) then Some(0)
    else match FirstIndex(p, s[1..])
      case None => None
      case Some(i) => Some(i + 1)
  }

  /** Concatenation of a list of lists (`flatMap` after the `map`). */
  function Flatten<T>(ss: seq<seq<T>>): (r: seq<T>)
    ensures forall i, x :: 0 <= i < |ss| && x in ss[i] ==> x in r
    ensures forall x :: x in r ==> exists i :: 0 <= i < |ss| && x in ss[i]
  {
    if ss == [] then []
    else
      var rest := Flatten(ss[1..]);
      assert forall i :: 1 <= i < |ss| ==> ss[i] == ss[1..][i - 1];
      assert forall x :: x in rest ==> exists i :: 1 <= i < |ss| && x in ss[i] by {
        forall x | x in rest ensures exists i :: 1 <= i < |ss| && x in ss[i] {
          var i :| 0 <= i < |ss| - 1 && x in ss[1..][i];
          assert x in ss[i + 1];
        }
      }
      ss[0] + rest
  }

  lemma {:induction false} FlattenAppend<T>(a: seq<seq<T>>, b: seq<seq<T>>)
    ensures Flatten(a + b) == Flatten(a) + Flatten(b)
    decreases |a|
  {
    if a != [] {
      assert (a + b)[1..] == a[1..] + b;
      FlattenAppend(a[1..], b);
    } else {
      assert a + b == b;
    }
  }

  lemma {:induction false} MapAppend<T, U>(f: T -> U, a: seq<T>, b: seq<T>)
    ensures Map(f, a + b) == Map(f, a) + Map(f, b)
  {
  }

  /** No value occurs twice. */
  predicate Distinct<T(==)>(s: seq<T>) {
    forall i, j :: 0 <= i < j < |s| ==> s[i] != s[j]
  }
}

=== FILE: sms.dfy ===
/** Sending one SMS text to several phones through the EazySMS gateway:
    phone-number normalisation, the guards that run before anything is
    sent, the request that is built, and how the gateway's reply becomes the
    result. The environment and the HTTP exchange are inputs. */
module Sms {
  import opened Wrappers
  import opened JsStrings
  import opened JsNumbers
  import opened Seqs

  const DefaultBaseUrl: string := "https://api.eazysms.io"
  const DefaultSenderName: string := "SMSNOTI"
  const CreatePath: string := "/sms-service/request/create"

  /** The fixed `type_request`, `type_message` and `type_send` of every request. */
  const TypeRequest: string := "normal"
  const TypeMessage: string := "custom"
  const TypeSend: string := "now"

  /** How much of an error reply's body goes into the error message. */
  const ErrorBodyLimit: nat := 200

  /** `EAZYSMS_BASE_URL`, `EAZYSMS_CLIENT_ID`, `EAZYSMS_CLIENT_SECRET` and
      `EAZYSMS_SENDER_NAME`, each possibly unset. */
  datatype SmsEnv = SmsEnv(
    baseUrl: Option<string>,
    clientId: Option<string>,
    clientSecret: Option<string>,
    senderName: Option<string>)

  /** One entry of the request's `transaction` list. */
  datatype Entry = Entry(phone: string, message: string)

  /** The POST the gateway receives: its URL, the two credential headers and
      the JSON body's `data` fields. */
  datatype SmsRequest = SmsRequest(
    url: string,
    clientId: string,
    clientSecret: string,
    typeRequest: string,
    typeMessage: string,
    typeSend: string,
    senderName: string,
    transaction: seq<Entry>)

  /** What `fetch` produced: a reply with its status and body text, or an
      exception with its message. */
  datatype HttpOutcome = Replied(status: int, text: string) | Threw(message: string)

  /** `SendSmsResult`. */
  datatype SendSmsResult = SendSmsResult(ok: bool, error: Option<string>)

  /** The result of `sendSms` and the request it posted, if it got that far. */
  datatype SmsSend = SmsSend(result: SendSmsResult, posted: Option<SmsRequest>)

  /** Every phone in the list has a visible character. */
  predicate AllNonBlank(phones: seq<string>) {
    forall i :: 0 <= i < |phones| ==> NonBlank(phones[i])
  }

  /** The digits of `phone`, in order (`replace(/\D/g, '')`). */
  function DigitsOf(phone: string): (r: string)
    ensures AllDigits(r) && IsSubseq(r, phone)
    ensures |r| == Count(IsDigit, phone)
    ensures forall c :: c in phone && IsDigit(c) ==> c in r
  {
    Filter(IsDigit, phone)
  }

  /** `normalizePhone`: keep the digits, then turn a leading trunk `0` into
      the country code `66`. */
  function NormalizePhone(phone: string): (r: string)
    ensures AllDigits(r)
    ensures r == [] || r[0] != '0'
    ensures var d := DigitsOf(phone);
      if d != [] && d[0] == '0' then |r| == |d| + 1 && r[..2] == "66" && r[2..] == d[1..] else r == d
  {
    var d := DigitsOf(phone);
    if d != [] && d[0] == '0' then
      var r := "66" + d[1..];
      assert r[2..] == d[1..];
      r
    else d
  }

  lemma {:induction false} DigitsOfDigits(s: string)
    requires AllDigits(s)
    ensures DigitsOf(s) == s
  {
    if s != [] {
      FilterStep(IsDigit, s);
      DigitsOfDigits(s[1..]);
      assert [s[0]] + s[1..] == s;
    }
  }

  /** A normalised number is left alone by normalising it again. */
  lemma {:induction false} NormalizeIdempotent(phone: string)
    ensures NormalizePhone(NormalizePhone(phone)) == NormalizePhone(phone)
  {
    DigitsOfDigits(NormalizePhone(phone));
  }

  /** The numbers normalisation leaves unchanged are exactly the digit
      strings that do not start with `0`. */
  lemma {:induction false} NormalizeFixedPoints(phone: string)
    ensures NormalizePhone(phone) == phone <==> AllDigits(phone) && (phone == [] || phone[0] != '0')
  {
    if AllDigits(phone) {
      DigitsOfDigits(phone);
    }
  }

  /** `replace(/\/$/, '')`: drop one trailing slash, if there is one. */
  function StripTrailingSlash(s: string): (r: string)
    ensures |s| > 0 && s[|s| - 1] == '/' ==> r + "/" == s
    ensures !(|s| > 0 && s[|s| - 1] == '/') ==> r == s
  {
    if |s| > 0 && s[|s| - 1] == '/' then s[..|s| - 1] else s
  }

  /** The gateway endpoint: the configured (or default) base URL less one
      trailing slash, then the create path. Putting the slash back onto what
      precedes the path gives the base again. */
  function RequestUrl(env: SmsEnv): (url: string)
    ensures var base := env.baseUrl.GetOr(DefaultBaseUrl);
      && |url| >= |CreatePath| && url[|url| - |CreatePath|..] == CreatePath
      && var head := url[..|url| - |CreatePath|];
         (if |base| > 0 && base[|base| - 1] == '/' then head + "/" else head) == base
  {
    var base := env.baseUrl.GetOr(DefaultBaseUrl);
    var head := StripTrailingSlash(base);
    var url := head + CreatePath;
    assert url[..|url| - |CreatePath|] == head;
    assert url[|url| - |CreatePath|..] == CreatePath;
    url
  }

  /** The default endpoint. */
  lemma {:induction false} DefaultUrl()
    ensures RequestUrl(SmsEnv(None, None, None, None)) == DefaultBaseUrl + CreatePath
  {
    assert DefaultBaseUrl[|DefaultBaseUrl| - 1] == 'o';
    assert StripTrailingSlash(DefaultBaseUrl) == DefaultBaseUrl;
  }

  function EntryFor(message: string): string -> Entry {
    p => Entry(NormalizePhone(p), Trim(message))
  }

  /** The `transaction` list: one entry per non-blank phone. */
  function Transaction(phones: seq<string>, message: string): (tx: seq<Entry>)
    ensures |tx| == Count(NonBlank, phones)
    ensures forall i :: 0 <= i < |tx| ==> tx[i].message == Trim(message) && AllDigits(tx[i].phone)
  {
    Map(EntryFor(message), Filter(NonBlank, phones))
  }

  /** Each entry carries the normalised form of the corresponding non-blank
      phone, in the order the phones were given. */
  lemma {:induction false} TransactionPhones(phones: seq<string>, message: string)
    ensures var kept := Filter(NonBlank, phones);
      |Transaction(phones, message)| == |kept|
      && forall i :: 0 <= i < |kept| ==> Transaction(phones, message)[i].phone == NormalizePhone(kept[i])
    ensures IsSubseq(Filter(NonBlank, phones), phones)
  {
  }

  /** The guards of `sendSms` and the request it would post. */
  function PrepareSms(env: SmsEnv, phones: seq<string>, message: string): (r: Result<SmsRequest, string>)
    ensures (phones == [] || !NonBlank(message)) <==> r == Failure("phones or message is empty")
    ensures phones != [] && NonBlank(message) && !(Truthy(env.clientId) && Truthy(env.clientSecret))
            <==> r == Failure("SMS not configured")
    ensures r == Failure("No valid phones")
            <==> phones != [] && NonBlank(message) && Truthy(env.clientId) && Truthy(env.clientSecret)
                 && Count(NonBlank, phones) == 0
    ensures r.Failure? ==> r.error in {"phones or message is empty", "SMS not configured", "No valid phones"}
    ensures r.Success? ==>
      && r.value.url == RequestUrl(env)
      && r.value.clientId == env.clientId.value && r.value.clientSecret == env.clientSecret.value
      && r.value.senderName == env.senderName.GetOr(DefaultSenderName)
      && r.value.typeRequest == TypeRequest && r.value.typeMessage == TypeMessage && r.value.typeSend == TypeSend
      && r.value.transaction == Transaction(phones, message)
      && |r.value.transaction| > 0
  {
    if phones == [] || !NonBlank(message) then Failure("phones or message is empty")
    else if !Truthy(env.clientId) || !Truthy(env.clientSecret) then Failure("SMS not configured")
    else
      var tx := Transaction(phones, message);
      if tx == [] then Failure("No valid phones")
      else Success(SmsRequest(RequestUrl(env), env.clientId.value, env.clientSecret.value,
                              TypeRequest, TypeMessage, TypeSend,
                              env.senderName.GetOr(DefaultSenderName), tx))
  }

  /** A 2xx reply. */
  predicate IsOkStatus(status: int) {
    200 <= status <= 299
  }

  /** `text.slice(0, n)`. */
  function Take(s: string, n: nat): (r: string)
    ensures r <= s && |r| == if |s| < n then |s| else n
  {
    if |s| <= n then s else s[..n]
  }

  /** The head of the message for a non-2xx reply. */
  function ApiErrorHead(status: int): string {
    "SMS API " + IntToString(status) + ": "
  }

  /** The message for a non-2xx reply: the head naming the status, then the
      start of the reply's body, at most `ErrorBodyLimit` characters. */
  function ApiError(status: int, text: string): (e: string)
    ensures var head := ApiErrorHead(status);
      && |e| >= |head| && e[..|head|] == head
      && e[|head|..] <= text
      && |e| - |head| == if |text| < ErrorBodyLimit then |text| else ErrorBodyLimit
  {
    var head := ApiErrorHead(status);
    var e := head + Take(text, ErrorBodyLimit);
    assert e[..|head|] == head && e[|head|..] == Take(text, ErrorBodyLimit);
    e
  }

  /** How the gateway's answer to a posted request becomes the result. */
  function Deliver(outcome: HttpOutcome): (r: SendSmsResult)
    ensures r.ok <==> outcome.Replied? && IsOkStatus(outcome.status)
    ensures r.ok <==> r.error.None?
    ensures outcome.Threw? ==> r.error == Some(outcome.message)
    ensures outcome.Replied? && !IsOkStatus(outcome.status) ==>
      r.error.Some? && "SMS API " <= r.error.value && |r.error.value| <= 10 + |IntToString(outcome.status)| + ErrorBodyLimit
    ensures outcome.Replied? && !IsOkStatus(outcome.status) ==>
      var head := ApiErrorHead(outcome.status);
      && r.error.Some? && |r.error.value| >= |head| && r.error.value[..|head|] == head
      && r.error.value[|head|..] <= outcome.text
      && |r.error.value| - |head| == if |outcome.text| < ErrorBodyLimit then |outcome.text| else ErrorBodyLimit
  {
    match outcome
    case Threw(msg) => SendSmsResult(false, Some(msg))
    case Replied(status, text) =>
      if IsOkStatus(status) then SendSmsResult(true, None)
      else SendSmsResult(false, Some(ApiError(status, text)))
  }

  /** `sendSms`, with the gateway as a function from the posted request to
      what came back. */
  function SendSms(env: SmsEnv, phones: seq<string>, message: string, gateway: SmsRequest -> HttpOutcome): (s: SmsSend)
    ensures s.posted.Some? <==> PrepareSms(env, phones, message).Success?
    ensures s.posted.Some? ==> s.posted.value == PrepareSms(env, phones, message).value
    ensures s.posted.None? ==> !s.result.ok && s.result.error == Some(PrepareSms(env, phones, message).error)
    ensures s.result.ok <==> s.posted.Some? && gateway(s.posted.value).Replied? && IsOkStatus(gateway(s.posted.value).status)
  {
    match PrepareSms(env, phones, message)
    case Failure(e) => SmsSend(SendSmsResult(false, Some(e)), None)
    case Success(req) => SmsSend(Deliver(gateway(req)), Some(req))
  }

  /** With credentials set, non-blank phones and a non-blank message, the
      request is always posted, one entry per phone. */
  lemma {:induction false} AlwaysPostsValidInput(env: SmsEnv, phones: seq<string>, message: string, gateway: SmsRequest -> HttpOutcome)
    requires Truthy(env.clientId) && Truthy(env.clientSecret)
    requires phones != [] && NonBlank(message)
    requires AllNonBlank(phones)
    ensures SendSms(env, phones, message, gateway).posted.Some?
    ensures |SendSms(env, phones, message, gateway).posted.value.transaction| == |phones|
  {
    CountAll(phones);
  }

  lemma {:induction false} CountAll(phones: seq<string>)
    requires AllNonBlank(phones)
    ensures Count(NonBlank, phones) == |phones|
  {
    if phones != [] {
      CountAll(phones[1..]);
    }
  }
}

=== FILE: sms_notify.dfy ===
/** The SMS notification route: it checks the request, looks the loan up,
    picks the recipients and the message for the workflow event
    ("scenario"), and sends through `Sms.SendSms`. The two tables and the
    gateway are inputs; the route's answer and the request it posted, if
    any, are the result. */
module SmsNotify {
  import opened Wrappers
  import opened JsStrings
  import opened Seqs
  import opened Sms

  /** The columns of `loans` the route reads. */
  datatype LoanRow = LoanRow(
    id: string,
    referenceNumber: Option<string>,
    customerName: Option<string>,
    saleId: Option<string>,
    approverId: Option<string>)

  /** The columns of `staff` the route reads. */
  datatype StaffRow = StaffRow(id: string, role: string, phone: Option<string>)

  /** The `scenario` field as the JSON body carries it: an integer, or any
      other JSON value (a string, a boolean, `null`, a fraction, missing)
      together with what `Number()` makes of it when that is an integer. */
  datatype Scenario = JsonNumber(n: int) | Other(coerced: Option<int>)

  /** The parsed body; `None` when `req.json()` fails or gives `null`. A
      primitive or array body is a request with both fields missing. */
  datatype NotifyRequest = NotifyRequest(scenario: Scenario, loanId: Option<string>)

  /** The JSON the route answers with. */
  datatype Reply =
    | ErrorReply(error: string)
    | NotSent(reason: string)
    | SendFailed(sendError: Option<string>)
    | Sent

  datatype Response = Response(status: int, reply: Reply)

  /** The route's answer and the request it handed to the gateway, if any. */
  datatype Outcome = Outcome(response: Response, posted: Option<SmsRequest>)

  /** Recipients and text chosen for an event. */
  datatype Plan = Plan(phones: seq<string>, message: string)

  const DefaultLabel: string := "เคสสินเชื่อ"
  const InvalidRequest: string := "ต้องส่ง scenario (1-5) และ loanId"
  const NotConfigured: string := "Server ไม่ได้ตั้งค่า SUPABASE_SERVICE_ROLE_KEY สำหรับส่ง SMS"
  const LoanNotFound: string := "ไม่พบเคสสินเชื่อ"
  const NoOwner: string := "เคสนี้ไม่มีเจ้าของ (sale_id)"
  const NoRecipients: string := "ไม่มีเบอร์ปลายทางที่ลงทะเบียน"
  const SendError: string := "ส่ง SMS ไม่สำเร็จ"

  /** `s?.trim()`, with an unset value read as the empty (falsy) string. */
  function TrimmedOr(s: Option<string>): string {
    Trim(s.GetOr([]))
  }

  /** `loanLabel`: "reference (customer)", whichever of the two is present,
      or a generic word for a loan case. */
  function LoanLabel(loan: LoanRow): (r: string)
    ensures var ref, name := TrimmedOr(loan.referenceNumber), TrimmedOr(loan.customerName);
      && (ref != [] && name != [] ==> r == ref + " (" + name + ")")
      && (ref != [] && name == [] ==> r == ref)
      && (ref == [] && name != [] ==> r == name)
      && (ref == [] && name == [] ==> r == DefaultLabel)
  {
    var ref := TrimmedOr(loan.referenceNumber);
    var name := TrimmedOr(loan.customerName);
    if ref != [] && name != [] then ref + " (" + name + ")"
    else if ref != [] then ref
    else if name != [] then name
    else DefaultLabel
  }

  /** Every caption has visible text, and it opens with the trimmed reference
      whenever there is one. */
  lemma {:induction false} LabelNeverBlank(loan: LoanRow)
    ensures NonBlank(LoanLabel(loan))
    ensures TrimmedOr(loan.referenceNumber) != [] ==> TrimmedOr(loan.referenceNumber) <= LoanLabel(loan)
  {
    var ref, name := TrimmedOr(loan.referenceNumber), TrimmedOr(loan.customerName);
    var r := LoanLabel(loan);
    if ref != [] {
      if name != [] {
        PrefixOfJoin(ref, " (", name, ")");
      }
      assert ref <= r;
      assert r[0] == ref[0];
    } else if name != [] {
      assert r == name;
    } else {
      assert r == DefaultLabel;
      assert r[0] == 'เ';
    }
    StartsVisible(r);
  }

  lemma {:induction false} PrefixOfJoin(a: string, b: string, c: string, d: string)
    ensures a <= a + b + c + d
  {
    var s := a + b + c + d;
    assert forall i :: 0 <= i < |a| ==> s[i] == a[i];
  }

  /** The rows with this id. */
  function RowsWithId(loans: seq<LoanRow>, id: string): (r: seq<LoanRow>)
    ensures forall i :: 0 <= i < |r| ==> r[i].id == id && r[i] in loans
    ensures forall x :: x in loans && x.id == id ==> x in r
  {
    if loans == [] then []
    else
      var rest := RowsWithId(loans[1..], id);
      if loans[0].id == id then [loans[0]] + rest else rest
  }

  /** `.eq('id', loanId).single()` on `loans`: the row when exactly one has
      that id, and nothing otherwise. */
  function FindLoan(loans: seq<LoanRow>, id: string): (r: Option<LoanRow>)
    ensures r.Some? <==> |RowsWithId(loans, id)| == 1
    ensures r.Some? ==> r.value in loans && r.value.id == id
  {
    var rows := RowsWithId(loans, id);
    if |rows| == 1 then Some(rows[0]) else None
  }

  function StaffWithId(staff: seq<StaffRow>, id: string): (r: seq<StaffRow>)
    ensures forall i :: 0 <= i < |r| ==> r[i].id == id && r[i] in staff
  {
    if staff == [] then []
    else
      var rest := StaffWithId(staff[1..], id);
      if staff[0].id == id then [staff[0]] + rest else rest
  }

  /** `phone && String(phone).trim()`. */
  predicate HasPhone(p: Option<string>) {
    p.Some? && NonBlank(p.value)
  }

  /** The trimmed phone of the one staff row with this id, if it has one. */
  function StaffPhone(staff: seq<StaffRow>, id: string): (r: Option<string>)
    ensures r.Some? ==> NonBlank(r.value)
    ensures r.Some? <==> |StaffWithId(staff, id)| == 1 && HasPhone(StaffWithId(staff, id)[0].phone)
    ensures r.Some? ==> r.value == Trim(StaffWithId(staff, id)[0].phone.value)
  {
    var rows := StaffWithId(staff, id);
    if |rows| == 1 && HasPhone(rows[0].phone) then
      TrimIdempotent(rows[0].phone.value);
      Some(Trim(rows[0].phone.value))
    else None
  }

  /** An approver the route can text. */
  predicate ReachableApprover(row: StaffRow) {
    row.role == "approver" && HasPhone(row.phone)
  }

  function PhoneText(row: StaffRow): string {
    row.phone.GetOr([])
  }

  /** The phones of every approver that has a non-blank phone, in table
      order and as stored (not trimmed). */
  function ApproverPhones(staff: seq<StaffRow>): (r: seq<string>)
    ensures |r| == Count(ReachableApprover, staff)
    ensures AllNonBlank(r)
  {
    var rows := Filter(ReachableApprover, staff);
    var r := Map(PhoneText, rows);
    assert forall i :: 0 <= i < |r| ==> r[i] == PhoneText(rows[i]) && ReachableApprover(rows[i]);
    r
  }

  /** Every approver with a phone is texted, and nobody else is. */
  lemma {:induction false} ApproversAllReached(staff: seq<StaffRow>)
    ensures forall row :: row in staff && ReachableApprover(row) ==> row.phone.value in ApproverPhones(staff)
    ensures forall p :: p in ApproverPhones(staff) ==>
              exists row :: row in staff && ReachableApprover(row) && row.phone == Some(p)
  {
    var rows := Filter(ReachableApprover, staff);
    MapMembers(PhoneText, rows);
    forall row | row in staff && ReachableApprover(row) ensures row.phone.value in ApproverPhones(staff) {
      assert row in rows;
      assert PhoneText(row) == row.phone.value;
    }
  }

  /** The five texts: a fixed head, the case caption, and for events 2 to 5
      the event's tail. */
  function NewCaseMessage(caseLabel: string): string {
    NewCaseHead + caseLabel
  }

  function ReturnedMessage(caseLabel: string): string {
    CaseHead + caseLabel + ReturnedTail
  }

  function ApprovedMessage(caseLabel: string): string {
    CaseHead + caseLabel + ApprovedTail
  }

  function RejectedMessage(caseLabel: string): string {
    CaseHead + caseLabel + RejectedTail
  }

  function ResubmittedMessage(caseLabel: string): string {
    CaseHead + caseLabel + ResubmittedTail
  }

  const NewCaseHead: string := "[NTJ] มีเคสสินเชื่อใหม่รอตรวจสอบ: "
  const CaseHead: string := "[NTJ] เคส "
  const ReturnedTail: string := " ถูกส่งกลับไปแก้ไข กรุณาแก้ไขและส่งกลับ"
  const ResubmittedTail: string := " ถูกแก้ไขแล้ว รอตรวจสอบ"
  const ApprovedTail: string := " อนุมัติแล้ว"
  const RejectedTail: string := " ถูกปฏิเสธ"

  /** The phone of the staff member with this id (the case owner, or the
      assigned approver), as a list of at most one. */
  function PhoneOfStaff(staff: seq<StaffRow>, id: string): (r: seq<string>)
    ensures |r| <= 1 && AllNonBlank(r)
    ensures r == [] <==> StaffPhone(staff, id).None?
    ensures StaffPhone(staff, id).Some? ==> r == [StaffPhone(staff, id).value]
  {
    var found := StaffPhone(staff, id);
    if found.None? then []
    else
      OnePhone(found.value);
      [found.value]
  }

  lemma {:induction false} OnePhone(phone: string)
    requires NonBlank(phone)
    ensures AllNonBlank([phone])
  {
    assert [phone][0] == phone;
  }

  /** Scenario 3's recipients: the named approver if one is set and has
      a phone, else every approver with a phone. */
  function ResubmitPhones(loan: LoanRow, staff: seq<StaffRow>): (r: seq<string>)
    ensures Truthy(loan.approverId) && StaffPhone(staff, loan.approverId.value).Some?
            ==> r == [StaffPhone(staff, loan.approverId.value).value]
    ensures !(Truthy(loan.approverId) && StaffPhone(staff, loan.approverId.value).Some?)
            ==> r == ApproverPhones(staff)
    ensures AllNonBlank(r)
  {
    var named := if Truthy(loan.approverId) then PhoneOfStaff(staff, loan.approverId.value) else [];
    if named == [] then ApproverPhones(staff) else named
  }

  /** One of the five workflow events. */
  predicate IsScenario(n: Option<int>) {
    n.Some? && 1 <= n.value <= 5
  }

  /** The events that text the case owner. */
  predicate NotifiesOwner(n: Option<int>) {
    n == Some(2) || n == Some(4) || n == Some(5)
  }

  /** The recipients of an event: every approver for a new case, the
      assigned approver (or every approver) for a resubmitted one, the owner
      for the other three; the owner events need an owner. */
  function RecipientsFor(n: Option<int>, loan: LoanRow, staff: seq<StaffRow>): (r: seq<string>)
    requires NotifiesOwner(n) ==> Truthy(loan.saleId)
    ensures AllNonBlank(r)
    ensures n == Some(1) ==> r == ApproverPhones(staff)
    ensures n == Some(3) ==> r == ResubmitPhones(loan, staff)
    ensures NotifiesOwner(n) ==> r == PhoneOfStaff(staff, loan.saleId.value) && |r| <= 1
    ensures !IsScenario(n) ==> r == []
  {
    if n == Some(1) then ApproverPhones(staff)
    else if NotifiesOwner(n) then PhoneOfStaff(staff, loan.saleId.value)
    else if n == Some(3) then ResubmitPhones(loan, staff)
    else []
  }

  /** The text of an event; a value no branch takes leaves it empty. */
  function MessageFor(n: Option<int>, caption: string): (m: string)
    ensures IsScenario(n) ==> NonBlank(m)
    ensures n == Some(1) ==> m == NewCaseMessage(caption)
    ensures n == Some(2) ==> m == ReturnedMessage(caption)
    ensures n == Some(3) ==> m == ResubmittedMessage(caption)
    ensures n == Some(4) ==> m == ApprovedMessage(caption)
    ensures n == Some(5) ==> m == RejectedMessage(caption)
    ensures !IsScenario(n) ==> m == []
  {
    var m :=
      if n == Some(1) then NewCaseMessage(caption)
      else if n == Some(2) then ReturnedMessage(caption)
      else if n == Some(3) then ResubmittedMessage(caption)
      else if n == Some(4) then ApprovedMessage(caption)
      else if n == Some(5) then RejectedMessage(caption)
      else "";
    if IsScenario(n) then
      MessageNotBlank(m);
      m
    else m
  }

  /** Recipients and message for an event that has been matched to one of
      the five branches (`n` is the value they compare); a missing owner is
      the one error, and a value no branch takes leaves nobody to notify. */
  function PlanFor(n: Option<int>, loan: LoanRow, staff: seq<StaffRow>): (r: Result<Plan, Response>)
    ensures r.Failure? <==> NotifiesOwner(n) && !Truthy(loan.saleId)
    ensures r.Failure? ==> r.error == Response(400, ErrorReply(NoOwner))
    ensures r.Success? ==> AllNonBlank(r.value.phones)
    ensures r.Success? && IsScenario(n) ==> NonBlank(r.value.message)
    ensures n == Some(1) ==> r == Success(Plan(ApproverPhones(staff), NewCaseMessage(LoanLabel(loan))))
    ensures n == Some(3) ==> r == Success(Plan(ResubmitPhones(loan, staff), ResubmittedMessage(LoanLabel(loan))))
    ensures r.Success? && NotifiesOwner(n) ==> |r.value.phones| <= 1
    ensures n == Some(2) && Truthy(loan.saleId)
            ==> r == Success(Plan(PhoneOfStaff(staff, loan.saleId.value), ReturnedMessage(LoanLabel(loan))))
    ensures n == Some(4) && Truthy(loan.saleId)
            ==> r == Success(Plan(PhoneOfStaff(staff, loan.saleId.value), ApprovedMessage(LoanLabel(loan))))
    ensures n == Some(5) && Truthy(loan.saleId)
            ==> r == Success(Plan(PhoneOfStaff(staff, loan.saleId.value), RejectedMessage(LoanLabel(loan))))
    ensures !IsScenario(n) ==> r == Success(Plan([], []))
  {
    if NotifiesOwner(n) && !Truthy(loan.saleId) then Failure(Response(400, ErrorReply(NoOwner)))
    else Success(Plan(RecipientsFor(n, loan, staff), MessageFor(n, LoanLabel(loan))))
  }

  /** No two events share a text: whatever the caption, the message alone
      tells which event happened. */
  lemma {:induction false} MessagesDistinguishEvents(k1: int, k2: int, caption: string)
    requires 1 <= k1 <= 5 && 1 <= k2 <= 5 && k1 != k2
    ensures MessageFor(Some(k1), caption) != MessageFor(Some(k2), caption)
  {
    if k1 == 1 {
      CaseMessage(k2, caption);
      NewCaseDiffers(caption, k2);
    } else if k2 == 1 {
      CaseMessage(k1, caption);
      NewCaseDiffers(caption, k1);
    } else {
      CaseMessage(k1, caption);
      CaseMessage(k2, caption);
      SameHeadDifferentTail(CaseHead + caption, Tail(k1), Tail(k2));
    }
  }

  /** Every event's text names the case: the caption occurs in it, right
      after the head. */
  lemma {:induction false} MessageNamesCase(k: int, caption: string)
    requires 1 <= k <= 5
    ensures OccursAt(MessageFor(Some(k), caption), caption, if k == 1 then |NewCaseHead| else |CaseHead|)
  {
    var m := MessageFor(Some(k), caption);
    if k == 1 {
      assert m == NewCaseHead + caption;
      assert m[|NewCaseHead|..] == caption;
    } else {
      CaseMessage(k, caption);
      assert m[|CaseHead|..|CaseHead| + |caption|] == caption;
    }
  }

  /** What follows the caption in the texts of events 2 to 5. */
  function Tail(k: int): string {
    if k == 2 then ReturnedTail
    else if k == 3 then ResubmittedTail
    else if k == 4 then ApprovedTail
    else RejectedTail
  }

  /** The texts of events 2 to 5 name the case between a common head and
      an event's own tail. */
  lemma {:induction false} CaseMessage(k: int, caption: string)
    requires 2 <= k <= 5
    ensures MessageFor(Some(k), caption) == CaseHead + caption + Tail(k)
  {
    var m := MessageFor(Some(k), caption);
    if k == 2 {
      assert m == ReturnedMessage(caption);
    } else if k == 3 {
      assert m == ResubmittedMessage(caption);
    } else if k == 4 {
      assert m == ApprovedMessage(caption);
    } else {
      assert m == RejectedMessage(caption);
    }
  }

  /** The new-case text differs from the others at its seventh character. */
  lemma {:induction false} NewCaseDiffers(caption: string, k: int)
    requires 2 <= k <= 5
    ensures NewCaseMessage(caption) != CaseHead + caption + Tail(k)
  {
    assert NewCaseMessage(caption)[6] == 'ม';
    assert (CaseHead + caption + Tail(k))[6] == 'เ';
  }

  lemma {:induction false} SameHeadDifferentTail(head: string, t1: string, t2: string)
    requires t1 != t2
    ensures head + t1 != head + t2
  {
    assert (head + t1)[|head|..] == t1;
    assert (head + t2)[|head|..] == t2;
  }

  /** Every message opens with the `[NTJ]` tag, so it is never blank. */
  lemma {:induction false} MessageNotBlank(m: string)
    requires |m| > 0 && m[0] == '['
    ensures NonBlank(m)
  {
    StartsVisible(m);
  }

  /** `[1, 2, 3, 4, 5].includes(Number(scenario))`. */
  function Coerced(s: Scenario): Option<int> {
    match s
    case JsonNumber(n) => Some(n)
    case Other(c) => c
  }

  /** The value `scenario === k` sees: only a JSON number equals a number. */
  function Strict(s: Scenario): Option<int> {
    match s
    case JsonNumber(n) => Some(n)
    case Other(_) => None
  }

  predicate ValidRequest(body: NotifyRequest) {
    Truthy(body.loanId) && IsScenario(Coerced(body.scenario))
  }

  /** Send the planned message, or report that there is nobody to send to. */
  function Dispatch(plan: Plan, env: SmsEnv, gateway: SmsRequest -> HttpOutcome): (o: Outcome)
    ensures plan.phones == [] <==> o.response == Response(200, NotSent(NoRecipients)) && o.posted.None?
    ensures plan.phones != [] ==> o.posted == SendSms(env, plan.phones, plan.message, gateway).posted
    ensures o.response == Response(200, Sent) <==> plan.phones != [] && SendSms(env, plan.phones, plan.message, gateway).result.ok
    ensures o.response.status == 502 <==> plan.phones != [] && !SendSms(env, plan.phones, plan.message, gateway).result.ok
  {
    if plan.phones == [] then Outcome(Response(200, NotSent(NoRecipients)), None)
    else
      var s := SendSms(env, plan.phones, plan.message, gateway);
      if !s.result.ok then Outcome(Response(502, SendFailed(s.result.error)), s.posted)
      else Outcome(Response(200, Sent), s.posted)
  }

  /** The route after the loan has been found, branching on `n`. */
  function Respond(n: Option<int>, loan: LoanRow, staff: seq<StaffRow>, env: SmsEnv,
                   gateway: SmsRequest -> HttpOutcome): (o: Outcome)
    ensures PlanFor(n, loan, staff).Failure? ==> o == Outcome(PlanFor(n, loan, staff).error, None)
    ensures PlanFor(n, loan, staff).Success? ==> o == Dispatch(PlanFor(n, loan, staff).value, env, gateway)
  {
    match PlanFor(n, loan, staff)
    case Failure(resp) => Outcome(resp, None)
    case Success(plan) => Dispatch(plan, env, gateway)
  }

  /** What the route answers once the loan is found, event by event: the
      approvers get the new-case text, the assigned approver (or every
      approver) the resubmission text, and the owner the other three; an
      owner event without an owner is refused; any other value notifies
      nobody. */
  lemma {:induction false} RespondByScenario(n: Option<int>, loan: LoanRow, staff: seq<StaffRow>, env: SmsEnv,
                                            gateway: SmsRequest -> HttpOutcome)
    ensures var o := Respond(n, loan, staff, env, gateway); var caption := LoanLabel(loan);
      && (n == Some(1) ==> o == Dispatch(Plan(ApproverPhones(staff), NewCaseMessage(caption)), env, gateway))
      && (n == Some(3) ==> o == Dispatch(Plan(ResubmitPhones(loan, staff), ResubmittedMessage(caption)), env, gateway))
      && (NotifiesOwner(n) && !Truthy(loan.saleId) ==> o == Outcome(Response(400, ErrorReply(NoOwner)), None))
      && (n == Some(2) && Truthy(loan.saleId)
          ==> o == Dispatch(Plan(PhoneOfStaff(staff, loan.saleId.value), ReturnedMessage(caption)), env, gateway))
      && (n == Some(4) && Truthy(loan.saleId)
          ==> o == Dispatch(Plan(PhoneOfStaff(staff, loan.saleId.value), ApprovedMessage(caption)), env, gateway))
      && (n == Some(5) && Truthy(loan.saleId)
          ==> o == Dispatch(Plan(PhoneOfStaff(staff, loan.saleId.value), RejectedMessage(caption)), env, gateway))
      && (!IsScenario(n) ==> o == Outcome(Response(200, NotSent(NoRecipients)), None))
  {
  }

  /** The route as written: checked with `Number(scenario)`, branched with
      `scenario === k`. `serverConfigured` says whether the service-role
      client can be created. */
  function NotifyAsWritten(body: Option<NotifyRequest>, serverConfigured: bool, loans: seq<LoanRow>,
                           staff: seq<StaffRow>, env: SmsEnv, gateway: SmsRequest -> HttpOutcome): (o: Outcome)
    ensures body.None? ==> o == Outcome(Response(500, ErrorReply(SendError)), None)
    ensures body.Some? && !ValidRequest(body.value) ==> o == Outcome(Response(400, ErrorReply(InvalidRequest)), None)
    ensures body.Some? && ValidRequest(body.value) && !serverConfigured
            ==> o == Outcome(Response(503, ErrorReply(NotConfigured)), None)
    ensures body.Some? && ValidRequest(body.value) && serverConfigured
            && FindLoan(loans, body.value.loanId.value).None?
            ==> o == Outcome(Response(404, ErrorReply(LoanNotFound)), None)
    ensures body.Some? && ValidRequest(body.value) && serverConfigured
            && FindLoan(loans, body.value.loanId.value).Some?
            ==> o == Respond(Strict(body.value.scenario), FindLoan(loans, body.value.loanId.value).value, staff, env, gateway)
  {
    Route(body, serverConfigured, loans, staff, env, gateway, false)
  }

  /** The route with the branches comparing the same coerced number the
      check accepted. */
  function Notify(body: Option<NotifyRequest>, serverConfigured: bool, loans: seq<LoanRow>,
                  staff: seq<StaffRow>, env: SmsEnv, gateway: SmsRequest -> HttpOutcome): (o: Outcome)
    ensures body.None? ==> o == Outcome(Response(500, ErrorReply(SendError)), None)
    ensures body.Some? && !ValidRequest(body.value) ==> o == Outcome(Response(400, ErrorReply(InvalidRequest)), None)
    ensures body.Some? && ValidRequest(body.value) && !serverConfigured
            ==> o == Outcome(Response(503, ErrorReply(NotConfigured)), None)
    ensures body.Some? && ValidRequest(body.value) && serverConfigured
            && FindLoan(loans, body.value.loanId.value).None?
            ==> o == Outcome(Response(404, ErrorReply(LoanNotFound)), None)
    ensures body.Some? && ValidRequest(body.value) && serverConfigured
            && FindLoan(loans, body.value.loanId.value).Some?
            ==> o == Respond(Coerced(body.value.scenario), FindLoan(loans, body.value.loanId.value).value, staff, env, gateway)
  {
    Route(body, serverConfigured, loans, staff, env, gateway, true)
  }

  /** The common shape of both versions; `coerce` picks which value the
      branches compare. */
  function Route(body: Option<NotifyRequest>, serverConfigured: bool, loans: seq<LoanRow>,
                 staff: seq<StaffRow>, env: SmsEnv, gateway: SmsRequest -> HttpOutcome, coerce: bool): (o: Outcome)
    ensures body.None? ==> o == Outcome(Response(500, ErrorReply(SendError)), None)
    ensures body.Some? && !ValidRequest(body.value) ==> o == Outcome(Response(400, ErrorReply(InvalidRequest)), None)
    ensures body.Some? && ValidRequest(body.value) && !serverConfigured
            ==> o == Outcome(Response(503, ErrorReply(NotConfigured)), None)
    ensures body.Some? && ValidRequest(body.value) && serverConfigured
            && FindLoan(loans, body.value.loanId.value).None?
            ==> o == Outcome(Response(404, ErrorReply(LoanNotFound)), None)
    ensures body.Some? && ValidRequest(body.value) && serverConfigured
            && FindLoan(loans, body.value.loanId.value).Some?
            ==> o == Respond(if coerce then Coerced(body.value.scenario) else Strict(body.value.scenario),
                             FindLoan(loans, body.value.loanId.value).value, staff, env, gateway)
    ensures o.posted.Some? ==> body.Some? && ValidRequest(body.value) && serverConfigured
                               && FindLoan(loans, body.value.loanId.value).Some?
  {
    match body
    case None => Outcome(Response(500, ErrorReply(SendError)), None)
    case Some(req) =>
      if !ValidRequest(req) then Outcome(Response(400, ErrorReply(InvalidRequest)), None)
      else if !serverConfigured then Outcome(Response(503, ErrorReply(NotConfigured)), None)
      else match FindLoan(loans, req.loanId.value)
        case None => Outcome(Response(404, ErrorReply(LoanNotFound)), None)
        case Some(loan) =>
          Respond(if coerce then Coerced(req.scenario) else Strict(req.scenario), loan, staff, env, gateway)
  }

  /** A request the route accepted reaches the gateway with the planned
      recipients and message, one entry per recipient, whenever the gateway
      is configured and the plan names anybody: the sending guards about
      empty input never fire from this route. */
  lemma {:induction false} AcceptedPlansArePosted(n: Option<int>, loan: LoanRow, staff: seq<StaffRow>,
                                                 env: SmsEnv, gateway: SmsRequest -> HttpOutcome)
    requires IsScenario(n)
    requires Truthy(env.clientId) && Truthy(env.clientSecret)
    requires PlanFor(n, loan, staff).Success? && PlanFor(n, loan, staff).value.phones != []
    ensures Respond(n, loan, staff, env, gateway).posted.Some?
    ensures |Respond(n, loan, staff, env, gateway).posted.value.transaction| == |PlanFor(n, loan, staff).value.phones|
    ensures var req := Respond(n, loan, staff, env, gateway).posted.value;
      Respond(n, loan, staff, env, gateway).response == Response(200, Sent)
      <==> gateway(req).Replied? && IsOkStatus(gateway(req).status)
  {
    var plan := PlanFor(n, loan, staff).value;
    AlwaysPostsValidInput(env, plan.phones, plan.message, gateway);
  }

  /** The corrected route agrees with the one as written whenever the
      scenario arrives as a JSON number. */
  lemma {:induction false} AgreeOnNumbers(body: Option<NotifyRequest>, serverConfigured: bool, loans: seq<LoanRow>,
                       staff: seq<StaffRow>, env: SmsEnv, gateway: SmsRequest -> HttpOutcome)
    requires body.Some? ==> body.value.scenario.JsonNumber?
    ensures Notify(body, serverConfigured, loans, staff, env, gateway)
            == NotifyAsWritten(body, serverConfigured, loans, staff, env, gateway)
  {
  }

  /** Once the request is valid and its loan found, both versions answer as
      their branch for the scenario does. */
  lemma {:induction false} FoundLoanIsAnswered(body: NotifyRequest, loans: seq<LoanRow>, loan: LoanRow, staff: seq<StaffRow>,
                            env: SmsEnv, gateway: SmsRequest -> HttpOutcome)
    requires ValidRequest(body) && FindLoan(loans, body.loanId.value) == Some(loan)
    ensures Notify(Some(body), true, loans, staff, env, gateway) == Respond(Coerced(body.scenario), loan, staff, env, gateway)
    ensures NotifyAsWritten(Some(body), true, loans, staff, env, gateway) == Respond(Strict(body.scenario), loan, staff, env, gateway)
  {
  }

  /** A value none of the five branches takes leaves nobody to notify, and
      nothing is posted. */
  lemma {:induction false} UnmatchedNotifiesNobody(n: Option<int>, loan: LoanRow, staff: seq<StaffRow>,
                                env: SmsEnv, gateway: SmsRequest -> HttpOutcome)
    requires !IsScenario(n)
    ensures Respond(n, loan, staff, env, gateway) == Outcome(Response(200, NotSent(NoRecipients)), None)
  {
  }

  /** The one approver of a one-row table, when it has a phone. */
  lemma {:induction false} SoleApprover(row: StaffRow)
    requires ReachableApprover(row)
    ensures ApproverPhones([row]) == [row.phone.value]
  {
    FilterStep(ReachableApprover, [row]);
    assert [row][1..] == [];
    assert Filter(ReachableApprover, [row]) == [row];
  }

  /** The input that shows the discrepancy: `scenario` sent as the string
      "1", the loan exists and one approver has a phone. */
  const ExampleBody: NotifyRequest := NotifyRequest(Other(Some(1)), Some("L1"))
  const ExampleLoan: LoanRow := LoanRow("L1", None, None, Some("S1"), None)
  const ExampleApprover: StaffRow := StaffRow("A1", "approver", Some("0812345678"))
  const ExampleEnv: SmsEnv := SmsEnv(None, Some("id"), Some("secret"), None)

  /** A gateway that accepts every request. */
  function AcceptAll(req: SmsRequest): HttpOutcome {
    Replied(200, "{}")
  }

  lemma {:induction false} ExampleLoanFound()
    ensures ValidRequest(ExampleBody)
    ensures FindLoan([ExampleLoan], "L1") == Some(ExampleLoan)
  {
    assert [ExampleLoan][1..] == [];
    assert RowsWithId([ExampleLoan], "L1") == [ExampleLoan];
  }

  lemma {:induction false} ExampleApprovers()
    ensures ApproverPhones([ExampleApprover]) == ["0812345678"]
  {
    var phone := "0812345678";
    StartsVisible(phone);
    SoleApprover(ExampleApprover);
  }

  /** A string that opens with a visible character is not blank. */
  lemma {:induction false} StartsVisible(m: string)
    requires |m| > 0 && !IsWhitespace(m[0])
    ensures NonBlank(m)
  {
    BlankIffAllWhitespace(m);
  }

  /** The route as written accepts the request and then notifies nobody. */
  lemma {:induction false} StringScenarioIsDropped()
    ensures ValidRequest(ExampleBody)
    ensures NotifyAsWritten(Some(ExampleBody), true, [ExampleLoan], [ExampleApprover], ExampleEnv, AcceptAll)
            == Outcome(Response(200, NotSent(NoRecipients)), None)
  {
    ExampleLoanFound();
    FoundLoanIsAnswered(ExampleBody, [ExampleLoan], ExampleLoan, [ExampleApprover], ExampleEnv, AcceptAll);
    UnmatchedNotifiesNobody(None, ExampleLoan, [ExampleApprover], ExampleEnv, AcceptAll);
  }

  /** The corrected route sends the same request to the approver. */
  lemma {:induction false} StringScenarioIsSent()
    ensures Notify(Some(ExampleBody), true, [ExampleLoan], [ExampleApprover], ExampleEnv, AcceptAll).response
            == Response(200, Sent)
    ensures Notify(Some(ExampleBody), true, [ExampleLoan], [ExampleApprover], ExampleEnv, AcceptAll).posted.Some?
  {
    var staff := [ExampleApprover];
    ExampleLoanFound();
    FoundLoanIsAnswered(ExampleBody, [ExampleLoan], ExampleLoan, staff, ExampleEnv, AcceptAll);
    assert Coerced(ExampleBody.scenario) == Some(1);
    ExamplePlan();
    ExampleEnvConfigured();
    AcceptedPlansArePosted(Some(1), ExampleLoan, staff, ExampleEnv, AcceptAll);
    var req := Respond(Some(1), ExampleLoan, staff, ExampleEnv, AcceptAll).posted.value;
    assert AcceptAll(req) == Replied(200, "{}");
  }

  /** Scenario 1 for the example loan plans one text, to the approver. */
  lemma {:induction false} ExamplePlan()
    ensures PlanFor(Some(1), ExampleLoan, [ExampleApprover]).Success?
    ensures PlanFor(Some(1), ExampleLoan, [ExampleApprover]).value.phones == ["0812345678"]
  {
    ExampleApprovers();
    assert RecipientsFor(Some(1), ExampleLoan, [ExampleApprover]) == ApproverPhones([ExampleApprover]);
  }

  lemma {:induction false} ExampleEnvConfigured()
    ensures Truthy(ExampleEnv.clientId) && Truthy(ExampleEnv.clientSecret)
  {
  }
}

=== FILE: storage.dfy ===
/** The object key an uploaded attachment is stored under. Storage keys
    must be ASCII, so the original file name (often Thai) is kept out of the
    key: only a sanitised extension survives. The clock and the random id
    are inputs. */
module Storage {
  import opened JsStrings
  import opened JsNumbers

  /** Where the random part of the key comes from: the first eight
      characters of `crypto.randomUUID()`, or, without it, characters 2 to 10
      of `Math.random().toString(36)`. */
  datatype IdSource = Uuid(uuid: string) | MathRandom(base36: string)

  /** A character `/^[a-z0-9]+$/i` accepts. */
  predicate IsAsciiAlnum(c: char) {
    'a' <= c <= 'z' || 'A' <= c <= 'Z' || '0' <= c <= '9'
  }

  predicate AllAsciiAlnum(s: string) {
    forall i :: 0 <= i < |s| ==> IsAsciiAlnum(s[i])
  }

  /** A lower-case letter or a digit. */
  predicate IsLowerAlnum(c: char) {
    'a' <= c <= 'z' || '0' <= c <= '9'
  }

  predicate AllLowerAlnum(s: string) {
    forall i :: 0 <= i < |s| ==> IsLowerAlnum(s[i])
  }

  /** The text after the last dot, lower-cased. The source lower-cases
      first and splits after; `SplitThenLower` shows the two orders agree. */
  function Extension(name: string): (ext: string)
    ensures '.' !in ext && |ext| <= |name|
  {
    LowerKeepsDots(AfterLast(name, '.'));
    Lower(AfterLast(name, '.'))
  }

  /** The extension is the lower-cased tail of the name that follows its
      last dot, or the whole name lower-cased when it has no dot. */
  lemma {:induction false} ExtensionShape(name: string)
    ensures var ext := Extension(name);
      && '.' !in ext && |ext| <= |name|
      && ext == Lower(name[|name| - |ext|..])
      && (|ext| < |name| ==> name[|name| - |ext| - 1] == '.')
      && ('.' !in name ==> ext == Lower(name))
  {
    LowerKeepsDots(AfterLast(name, '.'));
  }

  /** `name.toLowerCase().split('.').pop()` is the extension. */
  lemma {:induction false} SplitThenLower(name: string)
    ensures AfterLast(Lower(name), '.') == Extension(name)
  {
    if '.' in name {
      DottedName(name);
    } else {
      NoDotLowered(name);
    }
  }

  /** A name without a dot is its own last piece, before and after
      lower-casing. */
  lemma {:induction false} NoDotLowered(name: string)
    requires '.' !in name
    ensures AfterLast(Lower(name), '.') == Lower(AfterLast(name, '.'))
  {
    LowerKeepsDots(name);
  }

  lemma {:induction false} DottedName(name: string)
    requires '.' in name
    ensures AfterLast(Lower(name), '.') == Lower(AfterLast(name, '.'))
  {
    var segment := AfterLast(name, '.');
    AfterLastSplit(name, '.');
    assert |segment| < |name|;
    LowerJoin(name[..|name| - |segment| - 1], segment);
  }

  /** Lower-casing `head.seg` keeps the dot, so the last piece of the
      lower-cased text is the lower-cased last piece. */
  lemma {:induction false} LowerJoin(head: string, seg: string)
    requires '.' !in seg
    ensures AfterLast(Lower(head + ['.'] + seg), '.') == Lower(seg)
  {
    LowerAppend(head + ['.'], seg);
    LowerAppend(head, ['.']);
    assert Lower(['.']) == ['.'];
    LowerKeepsDots(seg);
    AfterLastOfJoin(Lower(head), '.', Lower(seg));
  }

  /** Lower-casing neither makes nor removes a dot. */
  lemma {:induction false} LowerKeepsDots(s: string)
    ensures forall i :: 0 <= i < |s| ==> (Lower(s)[i] == '.' <==> s[i] == '.')
    ensures '.' in Lower(s) <==> '.' in s
  {
    forall i | 0 <= i < |s| ensures Lower(s)[i] == '.' <==> s[i] == '.' {
      assert Lower(s)[i] == AsciiLowerChar(s[i]);
    }
  }

  /** The extension used when the name's own is not acceptable. */
  const Fallback: string := "bin"

  lemma {:induction false} FallbackIsLowerAlnum()
    ensures Fallback != [] && AllLowerAlnum(Fallback)
  {
    forall i | 0 <= i < |Fallback| ensures IsLowerAlnum(Fallback[i]) {
      if i == 0 {
        assert Fallback[i] == 'b';
      } else if i == 1 {
        assert Fallback[i] == 'i';
      } else {
        assert Fallback[i] == 'n';
      }
    }
  }

  /** `safeExt`: the extension when it is a non-empty run of ASCII letters
      and digits, and `bin` otherwise. */
  function SafeExtension(name: string): (r: string)
    ensures Accepted(Extension(name)) ==> r == Extension(name)
    ensures !Accepted(Extension(name)) ==> r == Fallback
  {
    if Accepted(Extension(name)) then Extension(name) else Fallback
  }

  /** `ext && /^[a-z0-9]+$/i.test(ext)`. */
  predicate Accepted(ext: string) {
    ext != [] && AllAsciiAlnum(ext)
  }

  /** The sanitised extension is never empty and is written with lower-case
      letters and digits only. */
  lemma {:induction false} SafeExtensionIsLowerAlnum(name: string)
    ensures SafeExtension(name) != [] && AllLowerAlnum(SafeExtension(name))
  {
    var ext := Extension(name);
    if Accepted(ext) {
      LowerIsLowerAlnum(name, ext);
    } else {
      FallbackIsLowerAlnum();
    }
  }

  /** An accepted extension is already lower-case, since it was cut from
      the lower-cased name. */
  lemma {:induction false} LowerIsLowerAlnum(name: string, ext: string)
    requires ext == Extension(name) && AllAsciiAlnum(ext)
    ensures AllLowerAlnum(ext)
  {
    var segment := AfterLast(name, '.');
    forall i | 0 <= i < |ext| ensures IsLowerAlnum(ext[i]) {
      assert ext[i] == AsciiLowerChar(segment[i]);
    }
  }

  /** JavaScript's `s.slice(from, to)` for `0 <= from <= to`: the indices are
      clamped to the string. */
  function Slice(s: string, from: nat, to: nat): (r: string)
    requires from <= to
    ensures |r| <= to - from
    ensures from <= |s| ==> r == s[from..if to <= |s| then to else |s|]
    ensures from > |s| ==> r == []
  {
    if from > |s| then []
    else if to <= |s| then s[from..to]
    else s[from..]
  }

  /** The random part of the key. */
  function GeneratedId(source: IdSource): (id: string)
    ensures |id| <= 8
    ensures source.Uuid? ==> id <= source.uuid && |id| == if |source.uuid| < 8 then |source.uuid| else 8
    ensures source.MathRandom? && |source.base36| <= 2 ==> id == []
    ensures source.MathRandom? && |source.base36| > 2
            ==> id == source.base36[2..if |source.base36| < 10 then |source.base36| else 10]
  {
    match source
    case Uuid(u) => Slice(u, 0, 8)
    case MathRandom(b) => Slice(b, 2, 10)
  }

  /** Characters a UUID or a base-36 fraction is written with. */
  predicate IsIdChar(c: char) {
    IsLowerAlnum(c) || c == '-' || c == '.'
  }

  /** Both generators give an id of letters, digits and dashes: the dot of
      `0.xxxx` is cut off with the leading `0`. */
  lemma {:induction false} GeneratedIdChars(source: IdSource)
    requires source.Uuid? ==> forall i :: 0 <= i < |source.uuid| ==> IsLowerAlnum(source.uuid[i]) || source.uuid[i] == '-'
    requires source.MathRandom? ==>
               |source.base36| >= 2 && source.base36[..2] == "0."
               && forall i :: 2 <= i < |source.base36| ==> IsLowerAlnum(source.base36[i])
    ensures forall i :: 0 <= i < |GeneratedId(source)| ==>
              IsLowerAlnum(GeneratedId(source)[i]) || GeneratedId(source)[i] == '-'
  {
    var id := GeneratedId(source);
    if source.MathRandom? {
      forall i | 0 <= i < |id| ensures IsLowerAlnum(id[i]) {
        assert id[i] == source.base36[2 + i];
      }
    }
  }

  /** `getSafeStoragePath`: `loans/<loanId>/<now>_<id>.<safeExt>`. */
  function SafeStoragePath(loanId: string, name: string, now: int, id: string): (key: string)
    ensures Folder(loanId) <= key
    ensures AfterLast(key, '.') == SafeExtension(name)
    ensures Extension(key) == SafeExtension(name)
  {
    var ext := SafeExtension(name);
    SafeExtensionIsLowerAlnum(name);
    NoDotInLowerAlnum(ext);
    KeyLayout(Folder(loanId), StemOf(now, id), ext);
    LowerOfLowerAlnum(ext);
    Folder(loanId) + StemOf(now, id) + "." + ext
  }

  /** Between the folder and the dot before the extension, the key holds
      the time stamp and the random id joined by `_`. */
  lemma {:induction false} PathShape(loanId: string, name: string, now: int, id: string)
    ensures var key := SafeStoragePath(loanId, name, now, id);
      var ext := SafeExtension(name);
      && |Folder(loanId)| < |key| - |ext|
      && key[|Folder(loanId)|..|key| - |ext| - 1] == IntToString(now) + "_" + id
      && key[|key| - |ext| - 1] == '.'
  {
    var t, ext := IntToString(now), SafeExtension(name);
    KeyMiddle(Folder(loanId), t, id, ext);
    assert SafeStoragePath(loanId, name, now, id) == Folder(loanId) + (t + "_" + id) + "." + ext;
  }

  lemma {:induction false} KeyMiddle(folder: string, t: string, id: string, ext: string)
    ensures var key := folder + (t + "_" + id) + "." + ext;
      && |folder| < |key| - |ext|
      && key[|folder|..|key| - |ext| - 1] == t + "_" + id
      && key[|key| - |ext| - 1] == '.'
  {
    KeyParts(folder, t + "_" + id, ext);
  }

  /** The directory of a loan's attachments. */
  function Folder(loanId: string): string {
    "loans/" + loanId + "/"
  }

  /** The file-name part before the extension: time stamp and random id. */
  function StemOf(now: int, id: string): string {
    IntToString(now) + "_" + id
  }

  /** The layout of a key, for any extension without a dot: it sits in
      its folder and its last dot-separated piece is the extension. */
  lemma {:induction false} KeyLayout(folder: string, stem: string, ext: string)
    requires '.' !in ext
    ensures folder <= folder + stem + "." + ext
    ensures AfterLast(folder + stem + "." + ext, '.') == ext
  {
    KeyInFolder(folder, stem + ".", ext);
    AfterLastOfJoin(folder + stem, '.', ext);
  }

  /** Where the stem and the dot sit in a key. */
  lemma {:induction false} KeyParts(folder: string, stem: string, ext: string)
    ensures var key := folder + stem + "." + ext;
      key[|folder|..|key| - |ext| - 1] == stem && key[|key| - |ext| - 1] == '.'
  {
    var key := folder + stem + "." + ext;
    assert key == folder + (stem + ("." + ext));
    assert key[|folder|..] == stem + ("." + ext);
    assert key[|folder|..][..|stem|] == stem;
  }

  lemma {:induction false} KeyInFolder(folder: string, middle: string, ext: string)
    ensures folder <= folder + middle + ext
  {
    var key := folder + middle + ext;
    assert forall i :: 0 <= i < |folder| ==> key[i] == folder[i];
    assert key[..|folder|] == folder;
  }

  /** One loan's keys tell its uploads apart: the key determines the time
      stamp, the random id and the sanitised extension, because a decimal
      time stamp holds no `_` and the extension no `.`. Two uploads to the
      same loan collide only when both the time stamp and the id repeat. */
  lemma {:induction false} KeysIdentifyUpload(loanId: string, name: string, now: int, id: string,
                                              name': string, now': int, id': string)
    ensures SafeStoragePath(loanId, name, now, id) == SafeStoragePath(loanId, name', now', id')
            <==> now == now' && id == id' && SafeExtension(name) == SafeExtension(name')
  {
    var ext, ext' := SafeExtension(name), SafeExtension(name');
    if SafeStoragePath(loanId, name, now, id) == SafeStoragePath(loanId, name', now', id') {
      SafeExtensionIsLowerAlnum(name);
      SafeExtensionIsLowerAlnum(name');
      NoDotInLowerAlnum(ext);
      NoDotInLowerAlnum(ext');
      KeyPartsUnique(Folder(loanId), StemOf(now, id), ext, StemOf(now', id'), ext');
      StemUnique(now, id, now', id');
    }
  }

  /** Within one folder, a key gives back its stem and its extension. */
  lemma {:induction false} KeyPartsUnique(folder: string, stem: string, ext: string, stem': string, ext': string)
    requires '.' !in ext && '.' !in ext'
    requires folder + stem + "." + ext == folder + stem' + "." + ext'
    ensures stem == stem' && ext == ext'
  {
    KeyLayout(folder, stem, ext);
    KeyLayout(folder, stem', ext');
    KeyParts(folder, stem, ext);
    KeyParts(folder, stem', ext');
  }

  /** `<now>_<id>` gives back its time stamp and its id. */
  lemma {:induction false} StemUnique(now: int, id: string, now': int, id': string)
    requires StemOf(now, id) == StemOf(now', id')
    ensures now == now' && id == id'
  {
    var t, t' := IntToString(now), IntToString(now');
    var stem := StemOf(now, id);
    UnderscoreEndsNumber(now, id);
    UnderscoreEndsNumber(now', id');
    assert |t| == |t'|;
    assert t == stem[..|t|] == t';
    assert id == stem[|t| + 1..] == id';
    ParseIntOfString(now);
    ParseIntOfString(now');
  }

  /** The first `_` of a stem is the one after the time stamp. */
  lemma {:induction false} UnderscoreEndsNumber(now: int, id: string)
    ensures var stem := StemOf(now, id);
      && stem[|IntToString(now)|] == '_'
      && stem[..|IntToString(now)|] == IntToString(now)
      && stem[|IntToString(now)| + 1..] == id
      && (forall i :: 0 <= i < |IntToString(now)| ==> stem[i] != '_')
  {
    NoUnderscoreInNumber(now);
  }

  /** `String(n)` is a sign and digits, never `_`. */
  lemma {:induction false} NoUnderscoreInNumber(n: int)
    ensures forall i :: 0 <= i < |IntToString(n)| ==> IntToString(n)[i] != '_'
  {
    var t := IntToString(n);
    var d := NatToString(if n < 0 then -n else n);
    forall i | 0 <= i < |t| ensures t[i] != '_' {
      if n < 0 && i > 0 {
        assert t[i] == d[i - 1];
        assert IsDigit(d[i - 1]);
      } else if n >= 0 {
        assert IsDigit(d[i]);
      }
    }
  }

  /** Nothing of the file name but its sanitised extension reaches the key:
      two names with the same sanitised extension, uploaded at the same
      moment with the same id, get the same key. */
  lemma {:induction false} NameOnlyThroughExtension(loanId: string, name: string, other: string, now: int, id: string)
    requires SafeExtension(other) == SafeExtension(name)
    ensures SafeStoragePath(loanId, other, now, id) == SafeStoragePath(loanId, name, now, id)
  {
  }

  /** Sanitising the key itself gives the sanitised extension back. */
  lemma {:induction false} ExtensionOfPath(loanId: string, name: string, now: int, id: string)
    ensures Extension(SafeStoragePath(loanId, name, now, id)) == SafeExtension(name)
    ensures SafeExtension(SafeStoragePath(loanId, name, now, id)) == SafeExtension(name)
  {
    var ext := SafeExtension(name);
    SafeExtensionIsLowerAlnum(name);
    NoDotInLowerAlnum(ext);
    KeyLayout(Folder(loanId), StemOf(now, id), ext);
    LowerOfLowerAlnum(ext);
    AllLowerIsAlnum(ext);
  }

  lemma {:induction false} NoDotInLowerAlnum(s: string)
    requires AllLowerAlnum(s)
    ensures '.' !in s
  {
    forall i | 0 <= i < |s| ensures s[i] != '.' {
      assert IsLowerAlnum(s[i]);
    }
  }

  lemma {:induction false} LowerOfLowerAlnum(s: string)
    requires AllLowerAlnum(s)
    ensures Lower(s) == s
  {
  }

  lemma {:induction false} AllLowerIsAlnum(s: string)
    requires AllLowerAlnum(s)
    ensures AllAsciiAlnum(s)
  {
  }

  /** The key is ASCII exactly when the loan id and the random id are. */
  lemma {:induction false} PathIsAscii(loanId: string, name: string, now: int, id: string)
    ensures AllAscii(SafeStoragePath(loanId, name, now, id)) <==> AllAscii(loanId) && AllAscii(id)
  {
    var ext := SafeExtension(name);
    SafeExtensionIsLowerAlnum(name);
    LowerAlnumIsAscii(ext);
    FolderAscii(loanId);
    StemAscii(now, id);
    DotAscii();
    AsciiAppend(Folder(loanId), StemOf(now, id));
    AsciiAppend(Folder(loanId) + StemOf(now, id), ".");
    AsciiAppend(Folder(loanId) + StemOf(now, id) + ".", ext);
  }

  lemma {:induction false} FolderAscii(loanId: string)
    ensures AllAscii(Folder(loanId)) <==> AllAscii(loanId)
  {
    var root := "loans/";
    forall i | 0 <= i < |root| ensures IsAscii(root[i]) {
      assert root[i] <= 's';
    }
    SlashAscii();
    AsciiAppend(root, loanId);
    AsciiAppend(root + loanId, "/");
  }

  lemma {:induction false} StemAscii(now: int, id: string)
    ensures AllAscii(StemOf(now, id)) <==> AllAscii(id)
  {
    var digits := IntToString(now);
    NumberIsAscii(now);
    var sep := "_";
    assert sep[0] == '_';
    assert AllAscii(sep);
    AsciiAppend(digits, sep);
    AsciiAppend(digits + sep, id);
  }

  lemma {:induction false} SlashAscii()
    ensures AllAscii("/")
  {
    var s := "/";
    assert s[0] == '/';
  }

  lemma {:induction false} DotAscii()
    ensures AllAscii(".")
  {
    var s := ".";
    assert s[0] == '.';
  }

  lemma {:induction false} LowerAlnumIsAscii(s: string)
    requires AllLowerAlnum(s)
    ensures AllAscii(s)
  {
    forall i | 0 <= i < |s| ensures IsAscii(s[i]) {
      assert IsLowerAlnum(s[i]);
    }
  }

  /** `String(n)` is written in ASCII. */
  lemma {:induction false} NumberIsAscii(n: int)
    ensures AllAscii(IntToString(n))
  {
    var digits := IntToString(n);
    forall i | 0 <= i < |digits| ensures IsAscii(digits[i]) {
      if n >= 0 {
        assert IsDigit(digits[i]);
      } else if i > 0 {
        assert digits[i] == NatToString(-n)[i - 1];
      }
    }
  }

  lemma {:induction false} AsciiAppend(a: string, b: string)
    ensures AllAscii(a + b) <==> AllAscii(a) && AllAscii(b)
  {
    if AllAscii(a + b) {
      assert forall i :: 0 <= i < |a| ==> (a + b)[i] == a[i];
      assert forall i :: 0 <= i < |b| ==> (a + b)[|a| + i] == b[i];
    }
  }

  /** A name ending in a dot and a run of ASCII letters and digits keeps
      that run, lower-cased. */
  lemma {:induction false} KeepsAlnumExtension(base: string, ext: string)
    requires ext != [] && AllAsciiAlnum(ext)
    ensures SafeExtension(base + "." + ext) == Lower(ext)
  {
    forall i | 0 <= i < |ext| ensures ext[i] != '.' && IsAsciiAlnum(Lower(ext)[i]) {
      assert IsAsciiAlnum(ext[i]);
      assert Lower(ext)[i] == AsciiLowerChar(ext[i]);
    }
    AfterLastOfJoin(base, '.', ext);
  }

  /** A last segment that is empty or holds anything but ASCII letters and
      digits (Thai text, a space, a dash) gives `bin`. */
  lemma {:induction false} RejectsOtherExtension(base: string, ext: string)
    requires '.' !in ext
    requires ext == [] || exists i :: 0 <= i < |ext| && !IsAsciiAlnum(ext[i])
    ensures SafeExtension(base + "." + ext) == Fallback
  {
    AfterLastOfJoin(base, '.', ext);
    if ext != [] {
      var i :| 0 <= i < |ext| && !IsAsciiAlnum(ext[i]);
      assert Lower(ext)[i] == AsciiLowerChar(ext[i]);
    }
  }

  /** A name without a dot is its own extension: `README` gives `readme`,
      and a Thai name gives `bin`. */
  lemma {:induction false} DotlessName(name: string)
    requires '.' !in name
    ensures name != [] && AllAsciiAlnum(name) ==> SafeExtension(name) == Lower(name)
    ensures (name == [] || exists i :: 0 <= i < |name| && !IsAsciiAlnum(name[i])) ==> SafeExtension(name) == Fallback
  {
    ExtensionShape(name);
    LowerAlnumIff(name);
  }

  /** Lower-casing neither makes nor breaks a run of ASCII letters and digits. */
  lemma {:induction false} LowerAlnumIff(s: string)
    ensures AllAsciiAlnum(Lower(s)) <==> AllAsciiAlnum(s)
  {
    forall i | 0 <= i < |s| ensures IsAsciiAlnum(Lower(s)[i]) <==> IsAsciiAlnum(s[i]) {
      LowerCharAlnum(s[i]);
    }
  }

  lemma {:induction false} LowerCharAlnum(c: char)
    ensures IsAsciiAlnum(AsciiLowerChar(c)) <==> IsAsciiAlnum(c)
  {
  }
}

=== FILE: wrappers.dfy ===
/** Optional values and results, standing in for the source's `null`/`undefined`
    and for its early error returns. */
module Wrappers {

  datatype Option<+T> = None | Some(value: T) {

    /** The wrapped value, or `default` when there is none (the source's `??`). */
    function GetOr(default: T): T {
      match this
      case Some(v) => v
      case None => default
    }
  }

  datatype Result<+R, +E> = Success(value: R) | Failure(error: E)
}
